=== FILE: README.md ===
# Cheat Sheet Creator: page layout model

Cheat Sheet Creator is a small Tk application (`main.py`). It loads a
folder of screenshots, shows them as a grid of thumbnails on a letter-sized
page, and exports the grid to a PDF of one or more pages. This project
models the application's layout core as pure Dafny functions and proves
properties of them:

- `Columns`: the automatic column heuristic `calculate_optimal_columns`,
  `min(max(1, ceil(sqrt(1.5 * ceil(n / pages)))), 4)`, and the column combo
  box ("Auto", "1" to "4"). The square root is exact: the model uses the
  least `k` with `2k² >= 3 * cells`.
- `Pagination`: the split of the image list into `ceil(n / pages)`-sized
  Python slices, one per page.
- `Grid`: the row-major grid. Image `i` of a page goes to row `i // cols`,
  column `i % cols`, and a page has `(len + cols - 1) // cols` rows.
- `Fit`: the aspect-preserving fit and centring of an image in its cell,
  and the pixel sizing of a thumbnail in `ImageFrame.update_size`.
- `Document`: the page loop that `export_pdf` (US letter, `y` upwards) and
  `show_preview` (letter scaled by 0.8, `y` downwards) share.
- `Screen`: `update_layout`, which shows the viewed page in the main window.
- `Navigation`: the page cursor (`prev_page`, `next_page`, the clamp
  `min(current, max(1, pages))`).
- `Frames`: `remove_image` as written, `list.remove` on the image list,
  followed in every case, frame present or not, by `update_layout`
  (main.py:274): the window is then `Screen.ScreenLayout` of the new list.
  No code path in `main.py` calls it: the thumbnail's delete button
  (`on_delete`, main.py:34-37) looks for `app` on the frame's grandparent,
  the canvas (main.py:138), but `load_images` puts `app` on the frame's
  parent (main.py:316). The button only destroys the widget, which stays
  in the image list.
- `Arith` and `Outcome`: shared helpers (`CeilDiv`, `Min`, `Max`, `Range`,
  `Option`, `Result`).

Python exceptions become `Err` values: `ZeroDivision` for a division by
zero and `MathDomain` for `sqrt` of a negative number. An image is known
by its position in the image list. A document is a sequence of pages, and
each page is a sequence of `Placement`s (image, page, grid cell, drawn
rectangle).

## Model

| member | source | states |
|---|---|---|
| Arith.CeilDiv | main.py:193 | `ceil(a / b)` is the least page-capacity count: `q * b >= a` and `q * b < a + b`, and at least 1 for a positive count |
| Arith.CeilDivMonotone | main.py:193 | more images never mean fewer images per page |
| Columns.SearchSqrt | main.py:198 | counting up from below the bound ends exactly on `ceil(sqrt(1.5 * cells))` |
| Columns.CeilSqrtThreeHalves | main.py:198 | the result is the least `k` with `k² >= 1.5 * cells` |
| Columns.CeilSqrtMonotone | main.py:198 | the square-root bound is monotone in the cell count |
| Columns.CeilSqrtBounds | main.py:198-201 | with at least one cell the square-root bound is at least 2, and it is clipped to 4 only when `1.5 * cells > 9` |
| Columns.OptimalColumns | main.py:185-201 | 1 for no images; otherwise between 2 and 4; below 4 it is exactly `ceil(sqrt(1.5 * ceil(n / pages)))`, and it is 4 only when that bound exceeds 3 |
| Columns.ColumnCount | main.py:348-351 | the column count used is always between 1 and 4, whatever the combo box holds |
| Columns.OptimalColumnsMonotone | main.py:185-201 | for a fixed page count, adding images never lowers the automatic column count |
| Columns.OneImageTwoColumns | main.py:185-201 | a single image on one page is laid out in two columns |
| Columns.EightImagesTwoPages | main.py:185-201 | eight images on two pages give three columns |
| Columns.FourImagesTwoPages | main.py:185-201 | four images on two pages give two columns |
| Pagination.PageSlice | main.py:357-359 | page `p` holds at most `ipp` images; they are images `p*ipp, p*ipp+1, …` of the list, in order; it is empty exactly when `p*ipp` is past the end |
| Pagination.PageSliceIsClampedInterval | main.py:357-359 | each page is the list between two clamped bounds, so neighbouring pages meet |
| Pagination.Paginate | main.py:345-359 | one slice per requested page, none longer than `ceil(n / pages)` |
| Pagination.TilingPrefix | main.py:357-359 | pages that follow each other's bounds rebuild a prefix of the list when concatenated |
| Pagination.PaginationCoversAll | main.py:353-359 | the pages, read in order, are the whole image list: nothing lost, repeated or reordered |
| Pagination.PageLength | main.py:357-359 | a page starting inside the list holds `min(ipp, n - start)` images |
| Pagination.PageOfImage | main.py:357-359 | image `i` is on page `p` if and only if `p == i // ipp`: every image is on exactly one page |
| Pagination.EmptyPagesAreTrailing | main.py:357-359 | once a page is empty, every later page is empty |
| Pagination.SomePageEmptyIff | main.py:345-359 | some page is empty exactly when `(pages - 1) * ceil(n / pages) >= n` |
| Pagination.FourImagesThreePages | main.py:345-359 | four images over three pages leave the third page empty |
| Grid.RowCount | main.py:361 | the fewest rows holding the page's images; zero exactly for an empty page |
| Grid.CellOf | main.py:366-368 | the column is inside the grid and the row-major position of the cell is the image's index |
| Grid.CellInGrid | main.py:361-368 | every image of a page lands in one of the page's rows |
| Grid.CellOfInjective | main.py:366-368 | two images of a page never share a cell |
| Grid.CellOfPosition | main.py:366-368 | every grid cell is the cell of the image whose index is its row-major position |
| Fit.AspectFit | main.py:374-383 | the fitted size fits the cell, has the image's aspect ratio, and fills the cell in at least one direction |
| Fit.AspectFitIsLargest | main.py:378-383 | no box of the image's shape that fits the cell is wider or taller than the fitted one |
| Fit.PlaceInCell | main.py:370-387 | the drawn box lies inside its cell, keeps the image's shape, and has equal slack on both sides of each axis |
| Fit.FrameSize | main.py:45-59 | nothing is resized unless both targets are positive; when the target is wider than the image the height is the target's and the width is `height * aspect` truncated, otherwise the width is the target's and the height is `width / aspect` truncated; the thumbnail fits the target |
| Fit.FrameSizeTruncatesAspectFit | main.py:45-59 | the window's thumbnail size is the PDF's aspect fit of the same image in the same cell, each side truncated to whole pixels |
| Navigation.PrevPage | main.py:276-279 | the back arrow moves one page back unless already on page 1; the page count is untouched; a cursor in range stays in range |
| Navigation.NextPage | main.py:281-284 | the forward arrow moves one page on unless on or past the last page; a cursor in range stays in range |
| Navigation.SetPageCount | main.py:101-103 | a page-count change leaves the cursor where it is |
| Navigation.ViewedPage | main.py:216-218 | the page shown is a real page, at most the cursor; it is the cursor itself when that is in range, and the last page (`max(1, pages)`) when the cursor is past it |
| Navigation.NextThenPrev | main.py:276-284 | forward then back returns to the same page when forward moved |
| Navigation.PrevThenNext | main.py:276-284 | back then forward returns to the same page when back moved |
| Navigation.NextTimesReaches | main.py:281-284 | `k` forward presses reach `min(current + k, pages)` |
| Navigation.PrevTimesReaches | main.py:276-279 | `k` back presses reach `max(current - k, 1)` |
| Navigation.CursorStaysPositive | main.py:101-119 | after any sequence of arrow presses and page-count changes from the opening state, the cursor is at least 1 and the viewed page exists |
| Navigation.PrevAfterShrinkKeepsView | main.py:216-218 | with the cursor well past a lowered page count, one back press changes the cursor but not the page shown |
| Frames.FirstIndex | main.py:271-273 | the first position holding the frame |
| Frames.RemoveImage | main.py:271-273 | an absent frame changes nothing; a present one has its first occurrence cut out and the rest keep their order |
| Frames.RemoveStep | main.py:271-273 | keeping a first frame that is not removed preserves the removal's result |
| Frames.RemoveImageMultiset | main.py:271-273 | removal takes out exactly one copy of a present frame and nothing else |
| Frames.RemoveDistinct | main.py:271-273 | removing a frame from a list of distinct frames leaves distinct frames without it |
| Document.LetterPageIsValid | main.py:336-342 | letter (612 x 792 points, margin 36) leaves a positive 540 x 720 area inside the margins |
| Document.PreviewPageIsValid | main.py:405-436 | the preview page is `int(612 * 0.8) x int(792 * 0.8) = 489 x 633` with margin `36 * 0.8 = 28.8`, leaving a positive area inside the margins |
| Document.CellCorner | main.py:370-372 | the corner of every grid cell, measured from the PDF's or the preview's origin, keeps the whole cell inside the margins; `Document.GridReadsFromTopLeft` states the order of the corners |
| Document.CellBox | main.py:362-372 | a grid cell is `usable_width / cols` wide and `usable_height / rows` high, and lies inside the margins |
| Document.GridReadsFromTopLeft | main.py:366-372 | cell (0, 0) starts at the margins' top-left corner; a lower column ends no later than a higher one starts, and a lower row ends, measured from the top edge, no later than a higher one starts, in the PDF (`y` upwards) and the preview (`y` downwards) alike |
| Document.PdfMirrorsPreview | main.py:470-472 | the preview puts each cell at the same distance from the left and the top edge as the PDF does (main.py:371-372), only `y` runs the other way |
| Document.SlotsOrdered | main.py:370-372 | an earlier column (row) of the grid ends no later than a later one starts |
| Document.CellBoxesDisjoint | main.py:366-372 | two different cells of a grid do not overlap |
| Document.PlaceImage | main.py:366-387 | image `first + i` of a page is placed on that page in cell `CellOf(i, cols)`; its drawn rectangle lies within that cell's rectangle, fills it in width or in height, is centred in it with equal slack on both sides of each axis, lies inside the margins, and has its image's aspect ratio |
| Document.PlacementsDisjoint | main.py:366-387 | two different images of one page are drawn in rectangles that do not overlap |
| Document.BoxInCellInsideMargins | main.py:370-387 | a box inside a cell inside the margins is inside the margins |
| Document.LayPage | main.py:366-387 | a non-empty page places its `i`-th image as image `first + i`, on that page, in cell `CellOf(i, cols)`, fitted and centred in that cell's rectangle, inside the margins, in its own shape; no two of its images overlap |
| Document.PageLayout | main.py:357-364 | a page fails with a division by zero exactly when it is empty and empty pages divide; otherwise it holds one placement per image of its slice and none of them overlap |
| Document.LayDocument | main.py:344-364 | a successful document has one page per requested page, and every page is a grid in the column count the setting gives for the whole list: its `i`-th image sits in cell `CellOf(i, ColumnCount(setting, n, pages))`, fitted and centred in that cell's rectangle |
| Document.LayPagesInColumns | main.py:353-368 | every page of a successful page loop in `cols` columns puts its `i`-th image in cell `CellOf(i, cols)`, fitted and centred in that cell's rectangle |
| Document.PageInColumns | main.py:361-368 | a laid-out page puts its `i`-th image in cell `CellOf(i, cols)`, fitted and centred in that cell's rectangle |
| Document.LayPages | main.py:353-364 | a successful page loop yields one page per iteration; its only failure is a division by zero |
| Document.DocumentLayout | main.py:321-351 | no images: nothing drawn; page count 0: division by zero; negative page count: no page drawn, or a math-domain error exactly under "Auto" with `n >= -pages`; with images and a positive page count a successful document has one page per requested page, each a grid in `ColumnCount(setting, n, pages)` columns with every image fitted and centred in its cell |
| Document.PagedLayout | main.py:344-364 | with images and pages, the loop succeeds exactly when no page is empty (or empty pages are blank), and then places every image once, in order, every page a grid in `ColumnCount(setting, n, pages)` columns with every image fitted and centred in its cell |
| Document.ExportLayout | main.py:321-395 | the PDF succeeds exactly when the last page is not empty; it then has one page per requested page, places every image once in order, every placement is inside the letter margins in its image's shape, and no two images of a page overlap; every page is a grid in `ColumnCount(setting, n, pages)` columns, the column count of the whole list, each image fitted and centred in its cell's rectangle on the letter page with `y` upwards |
| Document.PreviewLayout | main.py:397-494 | the preview succeeds exactly when the last page is not empty; it then places every image once in order, inside the preview page's margins, in its image's shape, with no two images of a page overlapping; every page is a grid in `ColumnCount(setting, n, pages)` columns, each image fitted and centred in its cell's rectangle on the preview page with `y` downwards |
| Document.ExportLayoutCorrected | main.py:353-364 | with empty pages left blank, the PDF always succeeds for images and a positive page count, and still places every image once, in order, in `ColumnCount(setting, n, pages)` columns, each image fitted and centred in its cell, with no overlap |
| Document.PageLayoutIds | main.py:357-368 | a laid-out page holds exactly the images of its page slice |
| Document.LayPagesPage | main.py:353-364 | page `p` of a successful page loop is page `p`'s own layout |
| Document.LayPagesContents | main.py:353-390 | every page of a successful loop is that page's own layout |
| Document.LayPagesSucceedsIff | main.py:353-364 | the loop succeeds exactly when it never reaches an empty page, or empty pages are blank |
| Document.DocumentPlacesEveryImageOnce | main.py:344-390 | a laid-out document has one entry per requested page and places every image exactly once, in list order |
| Document.PageLayoutWellPlaced | main.py:366-387 | every placement of a page is inside the margins, on that page, of an existing image, in its shape |
| Document.DocumentStaysInsideMargins | main.py:353-387 | every placement of a laid-out document is inside the margins, on its page, in its image's shape, and no two images of a page overlap |
| Document.ExportFailsOnEmptyTrailingPage | main.py:344-364 | four images on three pages: both the PDF and the preview fail with a division by zero |
| Document.CorrectedAgreesWhenNoPageIsEmpty | main.py:353-364 | wherever the code as written succeeds, the corrected loop draws the same document |
| Screen.CellWidth | main.py:243 | with no more columns than pixels, the cell width is the page width shared among the columns rounded down (`w * cols <= 816 < (w + 1) * cols`); with more columns than pixels it is one pixel |
| Screen.CellHeight | main.py:244 | with no more rows than pixels, the cell height is the page height shared among the rows rounded down (`h * rows <= 1056 < (h + 1) * rows`); with more rows than pixels it is one pixel |
| Screen.Padding | main.py:260-262 | every thumbnail is padded on each side, by one pixel under "Auto" and two under a fixed column count |
| Screen.ViewedCount | main.py:222-231 | the image count `len(current_frames)` the heuristic is given: the viewed slice's length, at most `ceil(n / pages)`, and zero exactly when the viewed page starts past the end of the list |
| Screen.ShowFrame | main.py:256-265 | a thumbnail goes to its own cell; it is resized exactly when the cell less twice the padding is positive both ways, and then to the aspect fit of its image into that padded cell, each side cut down to whole pixels, so it fits the cell with its padding |
| Screen.ShowPage | main.py:237-265 | an empty page fails with a division by zero; otherwise the grid has `cols` columns and `ceil(n / cols)` rows, and every frame is shown in its cell, resized as `Screen.ShowFrame` states |
| Screen.ShownPageIds | main.py:220-258 | the window shows exactly the images of the page slice |
| Screen.ViewedGrid | main.py:216-265 | the viewed page in a given column count fails exactly when its slice is empty and empty pages divide; otherwise it is a grid of that many columns showing exactly the slice's images, the `i`-th in cell `CellOf(i, cols)` and resized from the `i`-th frame of the slice as `Screen.ShowFrame` states |
| Screen.ScreenLayout | main.py:203-265 | no images: nothing changes; otherwise the window fails exactly when the viewed page is empty, shows that page's images and no others, and under "Auto" takes its columns from the page's own image count; the `i`-th thumbnail is in cell `CellOf(i, columns)`, resized from the page's `i`-th frame as `Screen.ShowFrame` states |
| Screen.ScreenLayoutCorrected | main.py:229-244 | with the PDF's column count and empty pages shown blank, the window always shows the viewed page's images, in the PDF's column count, the `i`-th in cell `CellOf(i, columns)`, resized from the page's `i`-th frame as `Screen.ShowFrame` states |
| Screen.ScreenFailsOnEmptyPage | main.py:237-244 | four images on three pages, viewing page 3: the window's layout divides by zero |
| Screen.ScreenFirstOfTwoPagesUsesTwoColumns | main.py:229-231 | eight images on two pages under "Auto": the window shows page 1 in two columns |
| Screen.ScreenColumnsDisagreeWithExport | main.py:229-231 | eight images on two pages under "Auto": the window uses two columns where the PDF uses three, so the third image of page 1 is shown in row 1, column 0 of the window but drawn in row 0, column 2 of the PDF |
| Screen.PdfFirstPageHoldsFour | main.py:353-359 | eight images on two pages: the PDF has two pages and the first holds four images |

## Left out

- The Tk widgets, the scroll region, the mouse wheel, the hover delete button and the file dialog. They only display or collect input. The page count and the column setting are parameters of the model.
- The printing and the `grid_remove`/`grid`/`columnconfigure` calls of `update_layout`. The model keeps their result: which image goes to which cell at which size.
- PIL and reportlab: decoding, `resize`, `thumbnail`, `drawImage`, `showPage` and `save`. An image is its pixel size. In the PDF a drawn image is its rectangle, since `drawImage` scales to the width and height given.
- `load_images`: the directory scan, extension filter and sort by creation time. The image list is an input, already in its final order.
- Floating point: the PDF and preview geometry uses exact reals. `sqrt` in the column heuristic is exact. A float rounding of `sqrt(1.5 * cells)` just above an integer is not modelled. The thumbnail size of `update_size` also uses exact reals (see the Fit.FrameSize lines).
- Fit.FrameSize: Python's `int()` truncates toward zero. It is modelled as the floor of the exact product or quotient; both are positive there, so truncation and floor coincide on the exact value. Python applies `int()` to a float, whose rounding can fall just below a whole number: a 3 x 11 image in a wider target of height 55 gets width `int(55 * (3 / 11)) = int(14.999999999999998) = 14`, where the model gives 15. Fit.FrameSize and Fit.FrameSizeTruncatesAspectFit can therefore be one pixel larger than the program's thumbnail.
- Fit.FrameSize: does not model what PIL's `resize` does with a zero width or height. It reports the computed size, which can be 0 for a very thin image.
- Screen.ScreenLayout: requires a cursor of at least 1. Navigation.CursorStaysPositive proves that every reachable cursor satisfies this.
- Screen.ScreenLayout: a page count the spin box cannot parse raises in Tk before any layout. The model takes any integer.
- Document.PreviewLayout: gives the computed rectangle, not what the preview draws in it. PIL's `thumbnail` only shrinks (main.py:488), so an image smaller than its rectangle keeps its own size; it is drawn anchored at the rectangle's top-left corner (`anchor='nw'`, main.py:494), so it is not centred then. The sizes and positions the preview shows are bounded by, but not equal to, the model's rectangles.
- Document.PreviewLayout: on a failure, the preview window has already been opened and partly drawn. The model reports only the error.
- Document.DocumentLayout: the `sqrt` domain error for a negative page count is kept. Its `int()` of a non-numeric combo value cannot happen, because the combo box is read-only.
- The main window's `export_pdf` button wiring and the preview window's scrollbar. They are UI only.
- `test_main.py` and `setup.py`. The tests target a different version of the application, and `setup.py` is packaging.

## Findings

| source | as written | input that shows it | evidently intended | confidence | as-written member | corrected member |
|---|---|---|---|---|---|---|
| main.py:345-364, 455-461, 238-244 | `images_per_page = ceil(n / pages)` can leave trailing pages empty. An empty page has `num_rows = 0`, and `usable_height / num_rows` (PDF, preview) or `page_height // num_rows` (window) raises ZeroDivisionError. The PDF catches it and saves nothing. | 4 images, 3 pages: 2 per page, page 3 empty | an empty page is left blank and the rest of the document is drawn | high, not executed | Document.ExportFailsOnEmptyTrailingPage | Document.ExportLayoutCorrected |
| main.py:230-231, 348-349 | under "Auto", `update_layout` passes the current page's image count together with the page count, dividing by the page count twice | 8 images, 2 pages, page 1: the window uses 2 columns, the PDF 3; the third image is in row 1, column 0 on screen and in row 0, column 2 of the PDF | the window uses the same column count as the PDF it previews | medium, not executed | Screen.ScreenColumnsDisagreeWithExport | Screen.ScreenLayoutCorrected |

=== FILE: arith.dfy ===
/** Integer helpers shared by the layout modules: Python's min/max and the
    ceiling division `ceil(a / b)` that main.py computes on non-negative
    counts. */
module Arith {

  function Min(a: int, b: int): int
  {
    if a <= b then a else b
  }

  function Max(a: int, b: int): int
  {
    if a >= b then a else b
  }

  /** `ceil(a / b)` for a non-negative numerator and a positive divisor:
      the least multiple count of `b` that reaches `a`. */
  function CeilDiv(a: nat, b: nat): (q: nat)
    requires b > 0
    ensures q * b >= a
    ensures q * b < a + b
    ensures a > 0 ==> q >= 1
  {
    var q := (a + b - 1) / b;
    assert (a + b - 1) == q * b + (a + b - 1) % b;
    q
  }

  /** Ceiling division is monotone in its numerator. */
  lemma CeilDivMonotone(a1: nat, a2: nat, b: nat)
    requires b > 0
    requires a1 <= a2
    ensures CeilDiv(a1, b) <= CeilDiv(a2, b)
  {
    var q1, q2 := CeilDiv(a1, b), CeilDiv(a2, b);
    if q1 > q2 {
      assert (q2 + 1) * b <= q1 * b by { MulMonotone(q2 + 1, q1, b); }
      assert false;
    }
  }

  lemma MulMonotone(x: nat, y: nat, b: nat)
    requires x <= y
    ensures x * b <= y * b
  {
  }

  /** The indices `0 .. n-1` in order; the identity of each image is its
      position in the application's image list. */
  function Range(n: nat): (r: seq<nat>)
    ensures |r| == n
    ensures forall i :: 0 <= i < n ==> r[i] == i
  {
    seq(n, i requires 0 <= i => i)
  }
}

=== FILE: columns.dfy ===
/** The automatic column count of `calculate_optimal_columns`
    (main.py:185-201): `min(max(1, ceil(sqrt(1.5 * cells))), 4)` where
    `cells = ceil(images / pages)`. The square root is taken exactly: the
    least `k` with `k * k >= 1.5 * cells`, i.e. `2 * k * k >= 3 * cells`. */
module Columns {
  import opened Arith

  /** `k` is `ceil(sqrt(1.5 * cells))`. */
  ghost predicate IsCeilSqrtThreeHalves(k: nat, cells: nat)
  {
    2 * k * k >= 3 * cells && (k == 0 || 2 * (k - 1) * (k - 1) < 3 * cells)
  }

  /** Counts up from `k` to the least square root bound; `k` starts below it. */
  function SearchSqrt(cells: nat, k: nat): (r: nat)
    requires k == 0 || 2 * (k - 1) * (k - 1) < 3 * cells
    ensures r >= k
    ensures IsCeilSqrtThreeHalves(r, cells)
    decreases 3 * cells - k
  {
    if 2 * k * k >= 3 * cells then k
    else
      assert k <= 2 * k * k;
      SearchSqrt(cells, k + 1)
  }

  function CeilSqrtThreeHalves(cells: nat): (k: nat)
    ensures IsCeilSqrtThreeHalves(k, cells)
  {
    SearchSqrt(cells, 0)
  }

  lemma SquareMonotone(a: nat, b: nat)
    requires a <= b
    ensures a * a <= b * b
  {
    MulMonotone(a, b, a);
    MulMonotone(a, b, b);
  }

  /** The exact square-root bound is monotone in the cell count. */
  lemma CeilSqrtMonotone(c1: nat, c2: nat, k1: nat, k2: nat)
    requires c1 <= c2
    requires IsCeilSqrtThreeHalves(k1, c1) && IsCeilSqrtThreeHalves(k2, c2)
    ensures k1 <= k2
  {
    if k1 > k2 {
      SquareMonotone(k2, k1 - 1);
      assert false;
    }
  }

  /** `calculate_optimal_columns(num_images, num_pages)` for a positive page
      count; `Document.DocumentLayout` models the calls with a negative
      count, which return before any page is drawn. */
  function OptimalColumns(numImages: nat, numPages: int): (cols: nat)
    requires numPages >= 1
    ensures 1 <= cols <= 4
    ensures numImages == 0 ==> cols == 1
    ensures numImages > 0 ==> cols >= 2
    ensures numImages > 0 ==>
      var cells := CeilDiv(numImages, numPages);
      (cols < 4 ==> IsCeilSqrtThreeHalves(cols, cells)) &&
      (cols == 4 ==> 2 * 3 * 3 < 3 * cells)
  {
    if numImages == 0 then 1
    else
      var cells := CeilDiv(numImages, numPages);
      var k := CeilSqrtThreeHalves(cells);
      CeilSqrtBounds(cells, k);
      if k >= 4 then 4 else k
  }

  lemma SmallSquare(k: nat)
    ensures k <= 1 ==> k * k <= 1
  {
  }

  /** For at least one cell the square-root bound is at least 2, and it
      exceeds 3 only when `1.5 * cells > 9`. */
  lemma CeilSqrtBounds(cells: nat, k: nat)
    requires cells >= 1
    requires IsCeilSqrtThreeHalves(k, cells)
    ensures k >= 2
    ensures k >= 4 ==> 2 * 3 * 3 < 3 * cells
  {
    SmallSquare(k);
    if k >= 4 {
      SquareMonotone(3, k - 1);
    }
  }

  /** A value of the read-only column combo box other than "Auto". */
  type ColumnChoice = c: int | 1 <= c <= 4 witness 1

  /** The column combo box: "Auto", "1", "2", "3" or "4". */
  datatype ColumnSetting = Auto | Fixed(count: ColumnChoice)

  /** The column count a layout uses for `numImages` images over
      `numPages` pages: the heuristic under "Auto", the chosen number
      otherwise (main.py:230-233, 348-351, 441-444). */
  function ColumnCount(setting: ColumnSetting, numImages: nat, numPages: int): (cols: nat)
    requires numPages >= 1
    ensures 1 <= cols <= 4
  {
    match setting
    case Auto => OptimalColumns(numImages, numPages)
    case Fixed(count) => count
  }

  /** For a fixed page count, more images never mean fewer columns. */
  lemma {:induction false} OptimalColumnsMonotone(n1: nat, n2: nat, pages: int)
    requires pages >= 1
    requires n1 <= n2
    ensures OptimalColumns(n1, pages) <= OptimalColumns(n2, pages)
  {
    if n1 > 0 {
      var c1, c2 := CeilDiv(n1, pages), CeilDiv(n2, pages);
      CeilDivMonotone(n1, n2, pages);
      var k1, k2 := CeilSqrtThreeHalves(c1), CeilSqrtThreeHalves(c2);
      CeilSqrtMonotone(c1, c2, k1, k2);
    }
  }

  /** Worked values: one image on one page still gets two columns. */
  lemma OneImageTwoColumns()
    ensures OptimalColumns(1, 1) == 2
  {
    assert CeilDiv(1, 1) == 1;
    CeilSqrtMonotone(1, 1, CeilSqrtThreeHalves(1), 2);
    CeilSqrtMonotone(1, 1, 2, CeilSqrtThreeHalves(1));
  }

  /** Eight images on two pages: four cells per page, three columns. */
  lemma EightImagesTwoPages()
    ensures OptimalColumns(8, 2) == 3
  {
    assert CeilDiv(8, 2) == 4;
    CeilSqrtMonotone(4, 4, CeilSqrtThreeHalves(4), 3);
    CeilSqrtMonotone(4, 4, 3, CeilSqrtThreeHalves(4));
  }

  /** Four images on two pages: two cells per page, two columns. */
  lemma FourImagesTwoPages()
    ensures OptimalColumns(4, 2) == 2
  {
    assert CeilDiv(4, 2) == 2;
    CeilSqrtMonotone(2, 2, CeilSqrtThreeHalves(2), 2);
    CeilSqrtMonotone(2, 2, 2, CeilSqrtThreeHalves(2));
  }
}

=== FILE: document.dfy ===
/** The page-by-page grid layout shared by `export_pdf` (main.py:321-395)
    and `show_preview` (main.py:397-494). Both split the image list into
    `ceil(n / pages)`-sized pages, lay each page out as a row-major grid of
    equal cells over the area inside the margins, and fit every image into
    its cell. They differ only in the page geometry and in which way `y`
    grows: up in the PDF, down on the preview canvas. */
module Document {
  import opened Arith
  import opened Outcome
  import opened Columns
  import opened Pagination
  import opened Grid
  import opened Fit

  /** A page and the margin kept on each of its four sides. */
  datatype Geometry = Geometry(pageWidth: real, pageHeight: real, margin: real)
  {
    function UsableWidth(): real { pageWidth - 2.0 * margin }
    function UsableHeight(): real { pageHeight - 2.0 * margin }
    predicate Valid() { margin >= 0.0 && UsableWidth() > 0.0 && UsableHeight() > 0.0 }
  }

  /** US letter in points, 0.5 inch margins (main.py:336-342). */
  const LetterPage := Geometry(612.0, 792.0, 36.0)

  /** The preview: letter scaled by 0.8 and truncated to whole pixels
      (489 x 633), margins scaled by the same factor (main.py:407-436). */
  const PreviewScale: real := 0.8
  const PreviewPage := Geometry((612.0 * PreviewScale).Floor as real,
                                (792.0 * PreviewScale).Floor as real,
                                36.0 * PreviewScale)

  /** Letter's 612 x 792 points less 36-point margins leave a positive
      area to draw in. */
  lemma LetterPageIsValid()
    ensures LetterPage.Valid()
    ensures LetterPage.UsableWidth() == 540.0 && LetterPage.UsableHeight() == 720.0
  {
  }

  /** The preview page is 489 x 633 pixels with 28.8-pixel margins, which
      leave a positive area to draw in. */
  lemma PreviewPageIsValid()
    ensures PreviewPage.Valid()
    ensures PreviewPage.pageWidth == 489.0 && PreviewPage.pageHeight == 633.0
    ensures PreviewPage.margin == 28.8
  {
  }

  /** PDF coordinates grow upwards from the bottom edge; the preview
      canvas's grow downwards from the top edge. */
  datatype Direction = Upward | Downward

  /** Image `image` of the list, drawn on page `page` in grid cell `cell`
      as the rectangle `box`. */
  datatype Placement = Placement(image: nat, page: nat, cell: Cell, box: Box)

  /** What an empty page does. `Divide` is the code as written:
      `usable_height / num_rows` with `num_rows = 0` raises. `Blank`
      leaves the page empty. */
  datatype EmptyPagePolicy = Divide | Blank

  /** The rectangle lies inside the page's margins. */
  predicate InsideMargins(g: Geometry, b: Box)
  {
    g.margin <= b.x && b.x + b.width <= g.pageWidth - g.margin &&
    g.margin <= b.y && b.y + b.height <= g.pageHeight - g.margin
  }

  /** The rectangle has the image's aspect ratio. */
  predicate KeepsShape(b: Box, size: ImageSize)
  {
    SameShape(b.width, b.height, size.width as real, size.height as real)
  }

  /** `inner` lies inside `outer`. */
  predicate Within(inner: Box, outer: Box)
  {
    outer.x <= inner.x && inner.x + inner.width <= outer.x + outer.width &&
    outer.y <= inner.y && inner.y + inner.height <= outer.y + outer.height
  }

  /** `inner` is fitted into `outer` as the program draws an image in its
      cell: inside it, filling it in width or in height, and centred, with
      equal slack on the two sides of each axis. */
  predicate FittedIn(inner: Box, outer: Box)
  {
    Within(inner, outer) &&
    (inner.width == outer.width || inner.height == outer.height) &&
    inner.x - outer.x == (outer.x + outer.width) - (inner.x + inner.width) &&
    inner.y - outer.y == (outer.y + outer.height) - (inner.y + inner.height)
  }

  /** The two rectangles do not overlap: one lies wholly to the left of,
      right of, below or above the other (touching edges allowed). */
  predicate Disjoint(a: Box, b: Box)
  {
    a.x + a.width <= b.x || b.x + b.width <= a.x ||
    a.y + a.height <= b.y || b.y + b.height <= a.y
  }

  /** `placed` is the drawing of frame `i` of a page whose first image is
      `first`: image `first + i`, on page `page`, in cell `CellOf(i, cols)`,
      fitted and centred in that cell's rectangle, inside the margins, in
      the frame's own shape. */
  predicate PlacedAt(placed: Placement, frames: seq<ImageSize>, i: nat, first: nat, page: nat, cols: nat,
                     g: Geometry, dir: Direction)
    requires i < |frames| && cols >= 1
    requires g.Valid()
  {
    placed.image == first + i && placed.page == page && placed.cell == CellOf(i, cols) &&
    FittedIn(placed.box, CellBoxOf(g, dir, i, |frames|, cols)) &&
    InsideMargins(g, placed.box) && KeepsShape(placed.box, frames[i])
  }

  /** Every page of `doc` is a grid of `cols` columns: its `i`-th
      placement sits in cell `CellOf(i, cols)`, fitted and centred in the
      rectangle of that cell. */
  predicate InColumns(g: Geometry, dir: Direction, doc: seq<seq<Placement>>, cols: nat)
    requires g.Valid() && cols >= 1
  {
    forall p, i :: 0 <= p < |doc| && 0 <= i < |doc[p]| ==>
      doc[p][i].cell == CellOf(i, cols) && FittedIn(doc[p][i].box, CellBoxOf(g, dir, i, |doc[p]|, cols))
  }

  /** No two placements of a page overlap. */
  predicate NoOverlap(placed: seq<Placement>)
  {
    forall i, j :: 0 <= i < |placed| && 0 <= j < |placed| && i != j ==>
      Disjoint(placed[i].box, placed[j].box)
  }

  /** `k` slots of width `total / n` end within `total` when `k < n`. */
  lemma SlotWithin(k: nat, n: nat, total: real)
    requires k < n
    requires total > 0.0
    ensures 0.0 <= (k as real) * (total / n as real)
    ensures (k as real) * (total / n as real) + total / n as real <= total
  {
    var w := total / n as real;
    assert w > 0.0;
    assert (n as real) * w == total;
    var spare := n as real - (k as real + 1.0);
    assert spare >= 0.0;
    assert spare * w >= 0.0;
    assert (k as real) * w + w == (k as real + 1.0) * w;
    assert (k as real + 1.0) * w <= (n as real) * w;
  }

  /** Where slot `k` of `n` equal slots across `total` begins:
      `k * (total / n)`. */
  function SlotStart(k: nat, n: nat, total: real): (o: real)
    requires k < n && total > 0.0
    ensures 0.0 <= o && o + total / n as real <= total
  {
    SlotWithin(k, n, total);
    (k as real) * (total / n as real)
  }

  /** Where slot `k` of `n` equal slots across `total` ends:
      `(k + 1) * (total / n)`. */
  function SlotEnd(k: nat, n: nat, total: real): (e: real)
    requires k < n && total > 0.0
    ensures total / n as real <= e <= total
    ensures e == SlotStart(k, n, total) + total / n as real
  {
    SlotWithin(k, n, total);
    var w := total / n as real;
    assert ((k + 1) as real) * w == (k as real) * w + w;
    ((k + 1) as real) * w
  }

  /** An earlier slot ends no later than a later one starts. */
  lemma SlotsOrdered(k1: nat, k2: nat, n: nat, total: real)
    requires k1 < k2 < n && total > 0.0
    ensures SlotStart(k1, n, total) + total / n as real <= SlotStart(k2, n, total)
  {
    var w := total / n as real;
    var a, b := SlotStart(k1, n, total), SlotStart(k2, n, total);
    var next := (k1 as real + 1.0) * w;
    assert a + w == next by {
      ScaleStep(k1 as real, w);
    }
    assert next <= b by {
      PositiveShare(total, n);
      ScaleMonotone(k1 as real + 1.0, k2 as real, w);
    }
  }

  lemma ScaleStep(x: real, w: real)
    ensures x * w + w == (x + 1.0) * w
  {
  }

  lemma ScaleMonotone(a: real, b: real, w: real)
    requires a <= b && 0.0 <= w
    ensures a * w <= b * w
  {
    assert b * w - a * w == (b - a) * w;
  }

  /** The corner the PDF or the preview starts a cell from: the lower-left
      corner `(margin + col * cw, pageHeight - margin - (row + 1) * ch)` in
      the PDF, the upper-left `(margin + col * cw, margin + row * ch)` on
      the preview. Either way the cell lies inside the margins. */
  function CellCorner(g: Geometry, dir: Direction, c: Cell, cols: nat, rows: nat): (corner: (real, real))
    requires g.Valid()
    requires c.col < cols && c.row < rows
    ensures var cw, ch := g.UsableWidth() / cols as real, g.UsableHeight() / rows as real;
      g.margin <= corner.0 && corner.0 + cw <= g.pageWidth - g.margin &&
      g.margin <= corner.1 && corner.1 + ch <= g.pageHeight - g.margin
  {
    var x := g.margin + SlotStart(c.col, cols, g.UsableWidth());
    match dir
    case Upward => (x, g.pageHeight - g.margin - SlotEnd(c.row, rows, g.UsableHeight()))
    case Downward => (x, g.margin + SlotStart(c.row, rows, g.UsableHeight()))
  }

  /** The rectangle of grid cell `c`: `cols` equal columns share the width
      inside the margins and `rows` equal rows the height. */
  function CellBox(g: Geometry, dir: Direction, c: Cell, cols: nat, rows: nat): (b: Box)
    requires g.Valid()
    requires c.col < cols && c.row < rows
    ensures b.width == g.UsableWidth() / cols as real && b.height == g.UsableHeight() / rows as real
    ensures InsideMargins(g, b)
  {
    var corner := CellCorner(g, dir, c, cols, rows);
    Box(corner.0, corner.1, g.UsableWidth() / cols as real, g.UsableHeight() / rows as real)
  }

  /** The rectangle of the cell of image `i` of a page of `n` images in
      `cols` columns. */
  function CellBoxOf(g: Geometry, dir: Direction, i: nat, n: nat, cols: nat): (b: Box)
    requires g.Valid()
    requires i < n && cols >= 1
    ensures InsideMargins(g, b)
  {
    CellInGrid(i, n, cols);
    CellBox(g, dir, CellOf(i, cols), cols, RowCount(n, cols))
  }

  /** How far below the page's top edge the rectangle begins: its top is
      `y + height` when `y` grows upwards, `y` when it grows downwards. */
  function TopOffset(g: Geometry, dir: Direction, b: Box): real
  {
    match dir
    case Upward => g.pageHeight - (b.y + b.height)
    case Downward => b.y
  }

  /** How a page reads, in the PDF and on the preview alike: the first cell
      starts at the top-left corner of the margins, columns run left to
      right and rows top to bottom. */
  lemma GridReadsFromTopLeft(g: Geometry, dir: Direction, c1: Cell, c2: Cell, cols: nat, rows: nat)
    requires g.Valid()
    requires c1.col < cols && c1.row < rows
    requires c2.col < cols && c2.row < rows
    ensures var b := CellBox(g, dir, Cell(0, 0), cols, rows);
      b.x == g.margin && TopOffset(g, dir, b) == g.margin
    ensures var b1, b2 := CellBox(g, dir, c1, cols, rows), CellBox(g, dir, c2, cols, rows);
      (c1.col < c2.col ==> b1.x + b1.width <= b2.x) &&
      (c1.row < c2.row ==> TopOffset(g, dir, b1) + b1.height <= TopOffset(g, dir, b2))
  {
    if c1.col < c2.col {
      SlotsOrdered(c1.col, c2.col, cols, g.UsableWidth());
    }
    if c1.row < c2.row {
      SlotsOrdered(c1.row, c2.row, rows, g.UsableHeight());
    }
  }

  /** The PDF and the preview put every cell at the same distance from the
      left and the top edge of the page: only the direction of `y`
      differs. */
  lemma PdfMirrorsPreview(g: Geometry, c: Cell, cols: nat, rows: nat)
    requires g.Valid()
    requires c.col < cols && c.row < rows
    ensures var up, down := CellBox(g, Upward, c, cols, rows), CellBox(g, Downward, c, cols, rows);
      up.x == down.x && TopOffset(g, Upward, up) == TopOffset(g, Downward, down)
  {
  }

  /** Distinct cells of a grid do not overlap, in the PDF and on the
      preview alike. */
  lemma CellBoxesDisjoint(g: Geometry, dir: Direction, c1: Cell, c2: Cell, cols: nat, rows: nat)
    requires g.Valid()
    requires c1.col < cols && c1.row < rows
    requires c2.col < cols && c2.row < rows
    requires c1 != c2
    ensures Disjoint(CellBox(g, dir, c1, cols, rows), CellBox(g, dir, c2, cols, rows))
  {
    if c1.col < c2.col {
      SlotsOrdered(c1.col, c2.col, cols, g.UsableWidth());
    } else if c2.col < c1.col {
      SlotsOrdered(c2.col, c1.col, cols, g.UsableWidth());
    } else if c1.row < c2.row {
      SlotsOrdered(c1.row, c2.row, rows, g.UsableHeight());
    } else {
      SlotsOrdered(c2.row, c1.row, rows, g.UsableHeight());
    }
  }

  /** Rectangles inside two non-overlapping rectangles do not overlap. */
  lemma WithinDisjoint(a: Box, b: Box, outerA: Box, outerB: Box)
    requires Within(a, outerA) && Within(b, outerB)
    requires Disjoint(outerA, outerB)
    ensures Disjoint(a, b)
  {
  }

  /** The `i`-th image of a page (image `first + i` of the list): it goes
      to `CellOf(i, cols)` and is fitted and centred in that cell. */
  function PlaceImage(frames: seq<ImageSize>, i: nat, first: nat, page: nat, cols: nat,
                      g: Geometry, dir: Direction): (placed: Placement)
    requires i < |frames| && cols >= 1
    requires g.Valid()
    ensures placed.image == first + i && placed.page == page
    ensures placed.cell == CellOf(i, cols) && placed.cell.row < RowCount(|frames|, cols)
    ensures FittedIn(placed.box, CellBoxOf(g, dir, i, |frames|, cols))
    ensures InsideMargins(g, placed.box)
    ensures KeepsShape(placed.box, frames[i])
  {
    var rows := RowCount(|frames|, cols);
    var c := CellOf(i, cols);
    CellInGrid(i, |frames|, cols);
    var cw := g.UsableWidth() / cols as real;
    var ch := g.UsableHeight() / rows as real;
    PositiveShare(g.UsableWidth(), cols);
    PositiveShare(g.UsableHeight(), rows);
    var corner := CellCorner(g, dir, c, cols, rows);
    var b := PlaceInCell(corner.0, corner.1, cw, ch, frames[i].width as real, frames[i].height as real);
    BoxInCellInsideMargins(g, corner.0, corner.1, cw, ch, b);
    Placement(first + i, page, c, b)
  }

  lemma PositiveShare(total: real, n: nat)
    requires total > 0.0 && n >= 1
    ensures total / n as real > 0.0
  {
  }

  /** A box inside a cell that lies inside the margins lies inside them too. */
  lemma BoxInCellInsideMargins(g: Geometry, x0: real, y0: real, cw: real, ch: real, b: Box)
    requires g.margin <= x0 && x0 + cw <= g.pageWidth - g.margin
    requires g.margin <= y0 && y0 + ch <= g.pageHeight - g.margin
    requires x0 <= b.x && b.x + b.width <= x0 + cw
    requires y0 <= b.y && b.y + b.height <= y0 + ch
    ensures InsideMargins(g, b)
  {
  }

  /** Two different images of one page are drawn in different cells,
      so their rectangles do not overlap. */
  lemma PlacementsDisjoint(frames: seq<ImageSize>, i: nat, j: nat, first: nat, page: nat, cols: nat,
                           g: Geometry, dir: Direction)
    requires i < |frames| && j < |frames| && i != j && cols >= 1
    requires g.Valid()
    ensures Disjoint(PlaceImage(frames, i, first, page, cols, g, dir).box,
                     PlaceImage(frames, j, first, page, cols, g, dir).box)
  {
    var a := PlaceImage(frames, i, first, page, cols, g, dir);
    var b := PlaceImage(frames, j, first, page, cols, g, dir);
    var rows := RowCount(|frames|, cols);
    if a.cell == b.cell {
      CellOfInjective(i, j, cols);
    }
    CellBoxesDisjoint(g, dir, a.cell, b.cell, cols, rows);
    WithinDisjoint(a.box, b.box, CellBox(g, dir, a.cell, cols, rows), CellBox(g, dir, b.cell, cols, rows));
  }

  lemma {:induction false} PageBoxesDisjoint(frames: seq<ImageSize>, first: nat, page: nat, cols: nat,
                                             g: Geometry, dir: Direction)
    requires cols >= 1
    requires g.Valid()
    ensures forall i, j :: 0 <= i < |frames| && 0 <= j < |frames| && i != j ==>
      Disjoint(PlaceImage(frames, i, first, page, cols, g, dir).box,
               PlaceImage(frames, j, first, page, cols, g, dir).box)
  {
    forall i, j | 0 <= i < |frames| && 0 <= j < |frames| && i != j
      ensures Disjoint(PlaceImage(frames, i, first, page, cols, g, dir).box,
                       PlaceImage(frames, j, first, page, cols, g, dir).box)
    {
      PlacementsDisjoint(frames, i, j, first, page, cols, g, dir);
    }
  }

  /** One non-empty page: image `first + i` of the list goes to cell
      `CellOf(i, cols)` of this page, inside the margins, in its own shape,
      and no two images of the page overlap. */
  function LayPage(frames: seq<ImageSize>, first: nat, page: nat, cols: nat,
                   g: Geometry, dir: Direction): (placed: seq<Placement>)
    requires |frames| >= 1 && cols >= 1
    requires g.Valid()
    ensures |placed| == |frames|
    ensures forall i :: 0 <= i < |placed| ==> PlacedAt(placed[i], frames, i, first, page, cols, g, dir)
    ensures NoOverlap(placed)
  {
    PageBoxesDisjoint(frames, first, page, cols, g, dir);
    seq(|frames|, i requires 0 <= i < |frames| => PlaceImage(frames, i, first, page, cols, g, dir))
  }

  /** Page `page` of the document: the page slice of the list, laid out, or
      the division error when the slice is empty and the policy divides. */
  function PageLayout(sizes: seq<ImageSize>, ipp: nat, page: nat, cols: nat,
                      g: Geometry, dir: Direction, policy: EmptyPagePolicy): (r: Result<seq<Placement>>)
    requires cols >= 1
    requires g.Valid()
    ensures r.Err? <==> policy == Divide && PageSlice(sizes, ipp, page) == []
    ensures r.Err? ==> r.error == ZeroDivision
    ensures r.Ok? ==> |r.value| == |PageSlice(sizes, ipp, page)|
    ensures r.Ok? ==> NoOverlap(r.value)
  {
    var frames := PageSlice(sizes, ipp, page);
    if RowCount(|frames|, cols) == 0 then
      if policy == Divide then Err(ZeroDivision) else Ok([])
    else Ok(LayPage(frames, page * ipp, page, cols, g, dir))
  }

  /** Pages `0 .. count-1`, in the order the `for page in range(...)` loop
      draws them; the first failing page ends the run. */
  function LayPages(sizes: seq<ImageSize>, ipp: nat, cols: nat, g: Geometry, dir: Direction,
                    policy: EmptyPagePolicy, count: nat): (r: Result<seq<seq<Placement>>>)
    requires cols >= 1
    requires g.Valid()
    ensures r.Ok? ==> |r.value| == count
    ensures r.Err? ==> r.error == ZeroDivision
  {
    if count == 0 then Ok([])
    else
      match LayPages(sizes, ipp, cols, g, dir, policy, count - 1)
      case Err(e) => Err(e)
      case Ok(done) =>
        match PageLayout(sizes, ipp, count - 1, cols, g, dir, policy)
        case Err(e) => Err(e)
        case Ok(placed) => Ok(done + [placed])
  }

  /** The whole document for a positive page count: `ceil(n / pages)`
      images per page, and every page a grid in the one column count the
      setting gives for the whole list, `n` images over `pages` pages. */
  function LayDocument(sizes: seq<ImageSize>, pages: int, setting: ColumnSetting,
                       g: Geometry, dir: Direction, policy: EmptyPagePolicy): (r: Result<seq<seq<Placement>>>)
    requires pages >= 1
    requires g.Valid()
    ensures r.Ok? ==> |r.value| == pages && InColumns(g, dir, r.value, ColumnCount(setting, |sizes|, pages))
  {
    var ipp := CeilDiv(|sizes|, pages);
    var cols := ColumnCount(setting, |sizes|, pages);
    var r := LayPages(sizes, ipp, cols, g, dir, policy, pages);
    if r.Ok? then
      LayPagesInColumns(sizes, ipp, cols, g, dir, policy, pages);
      r
    else r
  }

  /** A successful page loop in `cols` columns puts the `i`-th image of
      every page in cell `CellOf(i, cols)`. */
  lemma {:induction false} LayPagesInColumns(sizes: seq<ImageSize>, ipp: nat, cols: nat, g: Geometry,
                                             dir: Direction, policy: EmptyPagePolicy, count: nat)
    requires cols >= 1
    requires g.Valid()
    requires LayPages(sizes, ipp, cols, g, dir, policy, count).Ok?
    ensures InColumns(g, dir, LayPages(sizes, ipp, cols, g, dir, policy, count).value, cols)
  {
    var doc: seq<seq<Placement>> := LayPages(sizes, ipp, cols, g, dir, policy, count).value;
    forall p, i | 0 <= p < |doc| && 0 <= i < |doc[p]|
      ensures doc[p][i].cell == CellOf(i, cols) && FittedIn(doc[p][i].box, CellBoxOf(g, dir, i, |doc[p]|, cols))
    {
      LayPagesPage(sizes, ipp, cols, g, dir, policy, count, p);
      PageInColumns(sizes, ipp, p, cols, g, dir, policy);
    }
  }

  /** A laid-out page is a grid of `cols` columns. */
  lemma PageInColumns(sizes: seq<ImageSize>, ipp: nat, p: nat, cols: nat,
                      g: Geometry, dir: Direction, policy: EmptyPagePolicy)
    requires cols >= 1
    requires g.Valid()
    requires PageLayout(sizes, ipp, p, cols, g, dir, policy).Ok?
    ensures var placed := PageLayout(sizes, ipp, p, cols, g, dir, policy).value;
      forall i :: 0 <= i < |placed| ==>
        placed[i].cell == CellOf(i, cols) && FittedIn(placed[i].box, CellBoxOf(g, dir, i, |placed|, cols))
  {
    var frames := PageSlice(sizes, ipp, p);
    var placed := PageLayout(sizes, ipp, p, cols, g, dir, policy).value;
    if frames != [] {
      assert placed == LayPage(frames, p * ipp, p, cols, g, dir);
      forall i | 0 <= i < |placed|
        ensures placed[i].cell == CellOf(i, cols) && FittedIn(placed[i].box, CellBoxOf(g, dir, i, |placed|, cols))
      {
        assert PlacedAt(placed[i], frames, i, p * ipp, p, cols, g, dir);
      }
    }
  }

  /** Both entry points before the page loop: nothing is drawn without
      images; a page count of 0 fails in `ceil(n / 0)`; a negative count
      draws no page, unless "Auto" then takes `sqrt` of a negative cell
      count (it does when `n >= -pages`). */
  function DocumentLayout(sizes: seq<ImageSize>, pages: int, setting: ColumnSetting,
                    g: Geometry, dir: Direction, policy: EmptyPagePolicy): (r: Result<seq<seq<Placement>>>)
    requires g.Valid()
    ensures |sizes| == 0 ==> r == Ok([])
    ensures |sizes| > 0 && pages == 0 ==> r == Err(ZeroDivision)
    ensures |sizes| > 0 && pages < 0 ==>
      (r.Err? <==> setting.Auto? && |sizes| >= -pages) && (r.Ok? ==> r.value == [])
    ensures |sizes| > 0 && pages >= 1 && r.Ok? ==>
      |r.value| == pages && InColumns(g, dir, r.value, ColumnCount(setting, |sizes|, pages))
  {
    if |sizes| == 0 then Ok([])
    else if pages == 0 then Err(ZeroDivision)
    else if pages < 0 then
      if setting.Auto? && |sizes| >= -pages then Err(MathDomain) else Ok([])
    else LayDocument(sizes, pages, setting, g, dir, policy)
  }

  /** With images and a positive page count the page loop runs; it
      succeeds exactly when the last page is not empty,
      `(pages - 1) * ceil(n / pages) < n`, or when empty pages are left
      blank, and then places every image once, in order. */
  function PagedLayout(sizes: seq<ImageSize>, pages: int, setting: ColumnSetting,
                       g: Geometry, dir: Direction, policy: EmptyPagePolicy): (r: Result<seq<seq<Placement>>>)
    requires g.Valid()
    ensures |sizes| > 0 && pages >= 1 ==>
      (r.Ok? <==> policy == Blank || (pages - 1) * CeilDiv(|sizes|, pages) < |sizes|)
    ensures r.Ok? && |sizes| > 0 && pages >= 1 ==>
      |r.value| == pages && Flatten(DocumentIds(r.value)) == Range(|sizes|)
    ensures r.Ok? && |sizes| > 0 && pages >= 1 ==> InColumns(g, dir, r.value, ColumnCount(setting, |sizes|, pages))
  {
    var r := DocumentLayout(sizes, pages, setting, g, dir, policy);
    if |sizes| > 0 && pages >= 1 then
      LayPagesSucceedsIff(sizes, CeilDiv(|sizes|, pages), ColumnCount(setting, |sizes|, pages),
                          g, dir, policy, pages);
      if r.Ok? then
        DocumentPlacesEveryImageOnce(sizes, pages, setting, g, dir, policy);
        r
      else r
    else r
  }

  /** `export_pdf`: the PDF drawn on US letter, `y` upwards. */
  function ExportLayout(sizes: seq<ImageSize>, pages: int, setting: ColumnSetting): (r: Result<seq<seq<Placement>>>)
    ensures |sizes| > 0 && pages >= 1 ==>
      (r.Ok? <==> (pages - 1) * CeilDiv(|sizes|, pages) < |sizes|)
    ensures r.Ok? && |sizes| > 0 && pages >= 1 ==>
      |r.value| == pages && Flatten(DocumentIds(r.value)) == Range(|sizes|)
    ensures r.Ok? ==> forall p, i :: 0 <= p < |r.value| && 0 <= i < |r.value[p]| ==>
      WellPlaced(sizes, LetterPage, p, r.value[p][i])
    ensures r.Ok? ==> forall p :: 0 <= p < |r.value| ==> NoOverlap(r.value[p])
    ensures r.Ok? && |sizes| > 0 && pages >= 1 ==> InColumns(LetterPage, Upward, r.value, ColumnCount(setting, |sizes|, pages))
  {
    LetterPageIsValid();
    DocumentStaysInsideMargins(sizes, pages, setting, LetterPage, Upward, Divide);
    PagedLayout(sizes, pages, setting, LetterPage, Upward, Divide)
  }

  /** `show_preview`: the same layout on the scaled preview page, `y`
      downwards. */
  function PreviewLayout(sizes: seq<ImageSize>, pages: int, setting: ColumnSetting): (r: Result<seq<seq<Placement>>>)
    ensures |sizes| > 0 && pages >= 1 ==>
      (r.Ok? <==> (pages - 1) * CeilDiv(|sizes|, pages) < |sizes|)
    ensures r.Ok? && |sizes| > 0 && pages >= 1 ==>
      |r.value| == pages && Flatten(DocumentIds(r.value)) == Range(|sizes|)
    ensures r.Ok? ==> forall p, i :: 0 <= p < |r.value| && 0 <= i < |r.value[p]| ==>
      WellPlaced(sizes, PreviewPage, p, r.value[p][i])
    ensures r.Ok? ==> forall p :: 0 <= p < |r.value| ==> NoOverlap(r.value[p])
    ensures r.Ok? && |sizes| > 0 && pages >= 1 ==> InColumns(PreviewPage, Downward, r.value, ColumnCount(setting, |sizes|, pages))
  {
    PreviewPageIsValid();
    DocumentStaysInsideMargins(sizes, pages, setting, PreviewPage, Downward, Divide);
    PagedLayout(sizes, pages, setting, PreviewPage, Downward, Divide)
  }

  /** `export_pdf` with empty trailing pages left blank: for images and a
      positive page count it always succeeds and still places every image
      exactly once, in order. */
  function ExportLayoutCorrected(sizes: seq<ImageSize>, pages: int, setting: ColumnSetting): (r: Result<seq<seq<Placement>>>)
    ensures |sizes| > 0 && pages >= 1 ==>
      r.Ok? && |r.value| == pages && Flatten(DocumentIds(r.value)) == Range(|sizes|)
    ensures r.Ok? ==> forall p, i :: 0 <= p < |r.value| && 0 <= i < |r.value[p]| ==>
      WellPlaced(sizes, LetterPage, p, r.value[p][i])
    ensures r.Ok? ==> forall p :: 0 <= p < |r.value| ==> NoOverlap(r.value[p])
    ensures r.Ok? && |sizes| > 0 && pages >= 1 ==> InColumns(LetterPage, Upward, r.value, ColumnCount(setting, |sizes|, pages))
  {
    LetterPageIsValid();
    DocumentStaysInsideMargins(sizes, pages, setting, LetterPage, Upward, Blank);
    PagedLayout(sizes, pages, setting, LetterPage, Upward, Blank)
  }

  /** The image numbers on one laid-out page, in drawing order. */
  function ImageIds(placed: seq<Placement>): (ids: seq<nat>)
    ensures |ids| == |placed|
    ensures forall i :: 0 <= i < |placed| ==> ids[i] == placed[i].image
  {
    seq(|placed|, i requires 0 <= i < |placed| => placed[i].image)
  }

  function DocumentIds(doc: seq<seq<Placement>>): (ids: seq<seq<nat>>)
    ensures |ids| == |doc|
    ensures forall p :: 0 <= p < |doc| ==> ids[p] == ImageIds(doc[p])
  {
    seq(|doc|, p requires 0 <= p < |doc| => ImageIds(doc[p]))
  }

  /** A laid-out page holds exactly the images of its page slice. */
  lemma PageLayoutIds(sizes: seq<ImageSize>, ipp: nat, page: nat, cols: nat,
                      g: Geometry, dir: Direction, policy: EmptyPagePolicy)
    requires cols >= 1
    requires g.Valid()
    requires PageLayout(sizes, ipp, page, cols, g, dir, policy).Ok?
    ensures ImageIds(PageLayout(sizes, ipp, page, cols, g, dir, policy).value)
         == PageSlice(Range(|sizes|), ipp, page)
  {
    var placed := PageLayout(sizes, ipp, page, cols, g, dir, policy).value;
    var ids := PageSlice(Range(|sizes|), ipp, page);
    assert |ids| == |PageSlice(sizes, ipp, page)|;
    assert forall j :: 0 <= j < |ids| ==> ids[j] == page * ipp + j;
  }

  /** A successful run of the page loop lays out every page slice, each
      placement on its own page, inside the margins, in the image's shape. */
  lemma {:induction false} LayPagesContents(sizes: seq<ImageSize>, ipp: nat, cols: nat, g: Geometry,
                                            dir: Direction, policy: EmptyPagePolicy, count: nat)
    requires cols >= 1
    requires g.Valid()
    requires LayPages(sizes, ipp, cols, g, dir, policy, count).Ok?
    ensures var doc := LayPages(sizes, ipp, cols, g, dir, policy, count).value;
      forall p :: 0 <= p < count ==> PageLayout(sizes, ipp, p, cols, g, dir, policy) == Ok(doc[p])
  {
    forall p | 0 <= p < count
      ensures PageLayout(sizes, ipp, p, cols, g, dir, policy) == Ok(LayPages(sizes, ipp, cols, g, dir, policy, count).value[p])
    {
      LayPagesPage(sizes, ipp, cols, g, dir, policy, count, p);
    }
  }

  /** Page `p` of a successful loop is page `p`'s own layout. */
  lemma {:induction false} LayPagesPage(sizes: seq<ImageSize>, ipp: nat, cols: nat, g: Geometry,
                                        dir: Direction, policy: EmptyPagePolicy, count: nat, p: nat)
    requires cols >= 1
    requires g.Valid()
    requires LayPages(sizes, ipp, cols, g, dir, policy, count).Ok?
    requires p < count
    ensures PageLayout(sizes, ipp, p, cols, g, dir, policy) == Ok(LayPages(sizes, ipp, cols, g, dir, policy, count).value[p])
  {
    LayPagesStep(sizes, ipp, cols, g, dir, policy, count);
    var done := LayPages(sizes, ipp, cols, g, dir, policy, count - 1).value;
    var last := PageLayout(sizes, ipp, count - 1, cols, g, dir, policy);
    var doc := LayPages(sizes, ipp, cols, g, dir, policy, count).value;
    assert doc == done + [last.value];
    if p < count - 1 {
      LayPagesPage(sizes, ipp, cols, g, dir, policy, count - 1, p);
      assert doc[p] == done[p];
    } else {
      assert last == Ok(doc[p]);
    }
  }

  /** A successful loop over `count` pages is a successful loop over the
      first `count - 1` followed by the last page's layout. */
  lemma LayPagesStep(sizes: seq<ImageSize>, ipp: nat, cols: nat, g: Geometry,
                     dir: Direction, policy: EmptyPagePolicy, count: nat)
    requires cols >= 1
    requires g.Valid()
    requires count > 0
    requires LayPages(sizes, ipp, cols, g, dir, policy, count).Ok?
    ensures LayPages(sizes, ipp, cols, g, dir, policy, count - 1).Ok?
    ensures PageLayout(sizes, ipp, count - 1, cols, g, dir, policy).Ok?
    ensures LayPages(sizes, ipp, cols, g, dir, policy, count).value ==
            LayPages(sizes, ipp, cols, g, dir, policy, count - 1).value +
            [PageLayout(sizes, ipp, count - 1, cols, g, dir, policy).value]
  {
  }

  /** The page loop succeeds exactly when no page it visits is empty, or
      when empty pages are left blank. */
  lemma {:induction false} LayPagesSucceedsIff(sizes: seq<ImageSize>, ipp: nat, cols: nat, g: Geometry,
                                               dir: Direction, policy: EmptyPagePolicy, count: nat)
    requires cols >= 1
    requires g.Valid()
    requires ipp >= 1
    ensures LayPages(sizes, ipp, cols, g, dir, policy, count).Ok?
        <==> policy == Blank || count == 0 || (count - 1) * ipp < |sizes|
  {
    if count > 0 {
      LayPagesSucceedsIff(sizes, ipp, cols, g, dir, policy, count - 1);
      if count >= 2 && (count - 1) * ipp < |sizes| {
        MulMonotone(count - 2, count - 1, ipp);
      }
    }
  }

  /** Conservation: when the document is laid out, its pages, read in
      order, place every image of the list exactly once and in list order;
      there are as many pages as asked for. */
  lemma {:induction false} DocumentPlacesEveryImageOnce(sizes: seq<ImageSize>, pages: int, setting: ColumnSetting,
                                                        g: Geometry, dir: Direction, policy: EmptyPagePolicy)
    requires g.Valid()
    requires pages >= 1
    requires DocumentLayout(sizes, pages, setting, g, dir, policy).Ok?
    ensures |sizes| > 0 ==> |DocumentLayout(sizes, pages, setting, g, dir, policy).value| == pages
    ensures Flatten(DocumentIds(DocumentLayout(sizes, pages, setting, g, dir, policy).value)) == Range(|sizes|)
  {
    var doc := DocumentLayout(sizes, pages, setting, g, dir, policy).value;
    if |sizes| == 0 {
      assert doc == [];
      assert DocumentIds(doc) == [];
    } else {
      var ipp := CeilDiv(|sizes|, pages);
      var cols := ColumnCount(setting, |sizes|, pages);
      LayPagesContents(sizes, ipp, cols, g, dir, policy, pages);
      var ids := DocumentIds(doc);
      var paged := Paginate(Range(|sizes|), pages);
      forall p | 0 <= p < pages
        ensures ids[p] == paged[p]
      {
        PageLayoutIds(sizes, ipp, p, cols, g, dir, policy);
      }
      assert ids == paged;
      PaginationCoversAll(Range(|sizes|), pages);
    }
  }

  /** What every placement of a document promises: inside the margins,
      on the page it is listed under, of an existing image, in that
      image's shape. */
  predicate WellPlaced(sizes: seq<ImageSize>, g: Geometry, p: nat, placed: Placement)
  {
    InsideMargins(g, placed.box) && placed.page == p && placed.image < |sizes| &&
    KeepsShape(placed.box, sizes[placed.image])
  }

  lemma {:induction false} PageLayoutWellPlaced(sizes: seq<ImageSize>, ipp: nat, p: nat, cols: nat,
                             g: Geometry, dir: Direction, policy: EmptyPagePolicy)
    requires cols >= 1
    requires g.Valid()
    requires PageLayout(sizes, ipp, p, cols, g, dir, policy).Ok?
    ensures var placed := PageLayout(sizes, ipp, p, cols, g, dir, policy).value;
      forall i :: 0 <= i < |placed| ==> WellPlaced(sizes, g, p, placed[i])
  {
    var frames := PageSlice(sizes, ipp, p);
    var placed := PageLayout(sizes, ipp, p, cols, g, dir, policy).value;
    if frames != [] {
      assert placed == LayPage(frames, p * ipp, p, cols, g, dir);
      forall i | 0 <= i < |placed|
        ensures WellPlaced(sizes, g, p, placed[i])
      {
        assert p * ipp + i < |sizes| && frames[i] == sizes[p * ipp + i];
        PlacementWellPlaced(sizes, g, p, placed[i], frames[i]);
      }
    }
  }

  /** A placement of image `k` on page `p`, inside the margins and in the
      shape of `size`, is well placed when `size` is image `k`'s size. */
  lemma PlacementWellPlaced(sizes: seq<ImageSize>, g: Geometry, p: nat, placed: Placement, size: ImageSize)
    requires placed.image < |sizes| && sizes[placed.image] == size
    requires placed.page == p && InsideMargins(g, placed.box)
    requires KeepsShape(placed.box, size)
    ensures WellPlaced(sizes, g, p, placed)
  {
  }

  /** Every placement of a laid-out document lies inside its page's
      margins, keeps its image's aspect ratio, and records the page it is
      drawn on. */
  lemma {:induction false} DocumentStaysInsideMargins(sizes: seq<ImageSize>, pages: int, setting: ColumnSetting,
                                                      g: Geometry, dir: Direction, policy: EmptyPagePolicy)
    requires g.Valid()
    ensures var r := DocumentLayout(sizes, pages, setting, g, dir, policy);
      r.Ok? ==> forall p, i :: 0 <= p < |r.value| && 0 <= i < |r.value[p]| ==> WellPlaced(sizes, g, p, r.value[p][i])
    ensures var r := DocumentLayout(sizes, pages, setting, g, dir, policy);
      r.Ok? ==> forall p :: 0 <= p < |r.value| ==> NoOverlap(r.value[p])
  {
    var r := DocumentLayout(sizes, pages, setting, g, dir, policy);
    if r.Ok? && |sizes| > 0 && pages >= 1 {
      var doc: seq<seq<Placement>> := r.value;
      var ipp := CeilDiv(|sizes|, pages);
      var cols := ColumnCount(setting, |sizes|, pages);
      LayPagesContents(sizes, ipp, cols, g, dir, policy, pages);
      forall p | 0 <= p < |doc|
        ensures forall i :: 0 <= i < |doc[p]| ==> WellPlaced(sizes, g, p, doc[p][i])
        ensures NoOverlap(doc[p])
      {
        PageLayoutWellPlaced(sizes, ipp, p, cols, g, dir, policy);
      }
    }
  }

  /** Four images on three pages: the third page is empty and the export
      fails with the division error, so no PDF is saved. */
  lemma ExportFailsOnEmptyTrailingPage(sizes: seq<ImageSize>, setting: ColumnSetting)
    requires |sizes| == 4
    ensures ExportLayout(sizes, 3, setting) == Err(ZeroDivision)
    ensures PreviewLayout(sizes, 3, setting) == Err(ZeroDivision)
  {
    assert CeilDiv(4, 3) == 2;
  }

  /** Where the code as written succeeds, the corrected export draws the
      very same document. */
  lemma {:induction false} CorrectedAgreesWhenNoPageIsEmpty(sizes: seq<ImageSize>, ipp: nat, cols: nat,
                                                            g: Geometry, dir: Direction, count: nat)
    requires cols >= 1
    requires g.Valid()
    requires LayPages(sizes, ipp, cols, g, dir, Divide, count).Ok?
    ensures LayPages(sizes, ipp, cols, g, dir, Blank, count) == LayPages(sizes, ipp, cols, g, dir, Divide, count)
  {
    if count > 0 {
      CorrectedAgreesWhenNoPageIsEmpty(sizes, ipp, cols, g, dir, count - 1);
    }
  }
}

=== FILE: fit.dfy ===
/** Fitting an image into a grid cell while keeping its aspect ratio, then
    centring it (main.py:374-387, 471-484), and the pixel sizing of the
    on-screen thumbnail in `ImageFrame.update_size` (main.py:45-59). */
module Fit {
  import opened Outcome

  /** A pixel dimension as PIL reports it: at least one pixel. */
  type Pixels = n: int | n >= 1 witness 1

  /** The pixel size of an image file, `original_image.size`. */
  datatype ImageSize = ImageSize(width: Pixels, height: Pixels)

  /** A width and height in points (PDF and preview canvas). */
  datatype Size = Size(width: real, height: real)

  /** A placed rectangle: lower-left or upper-left corner and extent. */
  datatype Box = Box(x: real, y: real, width: real, height: real)

  /** A `width x height` rectangle has the aspect ratio of an
      `imageWidth x imageHeight` image. */
  predicate SameShape(width: real, height: real, imageWidth: real, imageHeight: real)
  {
    width * imageHeight == height * imageWidth
  }

  /** The largest `width x height` of the image's shape that fits the cell:
      when the cell is wider than the image (`cell_w / cell_h > aspect`) the
      height fills the cell, otherwise the width does. */
  function AspectFit(imageWidth: real, imageHeight: real, cellWidth: real, cellHeight: real): (fit: Size)
    requires imageWidth > 0.0 && imageHeight > 0.0
    requires cellWidth > 0.0 && cellHeight > 0.0
    ensures 0.0 < fit.width <= cellWidth
    ensures 0.0 < fit.height <= cellHeight
    ensures SameShape(fit.width, fit.height, imageWidth, imageHeight)
    ensures fit.width == cellWidth || fit.height == cellHeight
  {
    var aspect := imageWidth / imageHeight;
    if cellWidth / cellHeight > aspect then
      assert cellWidth > cellHeight * aspect by { DivGreater(cellWidth, cellHeight, aspect); }
      Size(cellHeight * aspect, cellHeight)
    else
      assert cellWidth <= cellHeight * aspect by { DivGreater(cellWidth, cellHeight, aspect); }
      assert cellWidth / aspect <= cellHeight by { DivGreater(cellWidth, aspect, cellHeight); }
      Size(cellWidth, cellWidth / aspect)
  }

  /** No box of the image's shape that fits the cell is larger than the
      fitted one: the fit is the largest possible. */
  lemma AspectFitIsLargest(imageWidth: real, imageHeight: real, cellWidth: real, cellHeight: real,
                           w: real, h: real)
    requires imageWidth > 0.0 && imageHeight > 0.0
    requires cellWidth > 0.0 && cellHeight > 0.0
    requires 0.0 < w <= cellWidth && 0.0 < h <= cellHeight
    requires SameShape(w, h, imageWidth, imageHeight)
    ensures w <= AspectFit(imageWidth, imageHeight, cellWidth, cellHeight).width
    ensures h <= AspectFit(imageWidth, imageHeight, cellWidth, cellHeight).height
  {
    var fit := AspectFit(imageWidth, imageHeight, cellWidth, cellHeight);
    if fit.width == cellWidth {
      assert fit.height * imageWidth == cellWidth * imageHeight;
      assert w * imageHeight <= cellWidth * imageHeight;
      assert h * imageWidth <= fit.height * imageWidth;
    } else {
      assert fit.height == cellHeight;
      assert fit.width * imageHeight == cellHeight * imageWidth;
      assert h * imageWidth <= cellHeight * imageWidth;
      assert w * imageHeight <= fit.width * imageHeight;
    }
  }

  lemma DivGreater(a: real, b: real, c: real)
    requires b > 0.0
    ensures a / b > c <==> a > b * c
  {
    assert a == (a / b) * b;
  }

  /** The image fitted to a cell whose corner is `(x0, y0)` and moved by
      half the slack `(cell - image) / 2` on each axis. The box keeps the
      image's shape and lies inside the cell. */
  function PlaceInCell(x0: real, y0: real, cellWidth: real, cellHeight: real,
                       imageWidth: real, imageHeight: real): (b: Box)
    requires imageWidth > 0.0 && imageHeight > 0.0
    requires cellWidth > 0.0 && cellHeight > 0.0
    ensures x0 <= b.x && b.x + b.width <= x0 + cellWidth
    ensures y0 <= b.y && b.y + b.height <= y0 + cellHeight
    ensures b.width > 0.0 && b.height > 0.0
    ensures SameShape(b.width, b.height, imageWidth, imageHeight)
    ensures b.width == cellWidth || b.height == cellHeight
    ensures b.x - x0 == (x0 + cellWidth) - (b.x + b.width)
    ensures b.y - y0 == (y0 + cellHeight) - (b.y + b.height)
  {
    var fit := AspectFit(imageWidth, imageHeight, cellWidth, cellHeight);
    Box(x0 + (cellWidth - fit.width) / 2.0, y0 + (cellHeight - fit.height) / 2.0,
        fit.width, fit.height)
  }

  /** Integer pixel size of an on-screen thumbnail. */
  datatype PixelSize = PixelSize(width: int, height: int)

  /** `ImageFrame.update_size(width, height)`: nothing happens unless both
      targets are positive; otherwise the side that binds is kept and the
      other is `int(...)` of the aspect-scaled value, truncated toward zero
      (here a floor, since both operands are positive). */
  function FrameSize(image: ImageSize, width: int, height: int): (r: Option<PixelSize>)
    ensures r.None? <==> (width <= 0 || height <= 0)
    ensures r.Some? ==> 0 <= r.value.width <= width && 0 <= r.value.height <= height
    ensures r.Some? ==>
      var aspect := image.width as real / image.height as real;
      if width as real / height as real > aspect then
        r.value.height == height &&
        r.value.width as real <= height as real * aspect < r.value.width as real + 1.0
      else
        r.value.width == width &&
        r.value.height as real <= width as real / aspect < r.value.height as real + 1.0
  {
    if width <= 0 || height <= 0 then None
    else
      var aspect := image.width as real / image.height as real;
      var w, h := width as real, height as real;
      if w / h > aspect then
        assert w > h * aspect by { DivGreater(w, h, aspect); }
        Some(PixelSize((h * aspect).Floor, height))
      else
        assert w / aspect <= h by {
          DivGreater(w, h, aspect);
          DivGreater(w, aspect, h);
        }
        Some(PixelSize(width, (w / aspect).Floor))
  }

  /** The on-screen thumbnail is the fit the PDF and the preview use,
      with each side truncated to whole pixels. */
  lemma FrameSizeTruncatesAspectFit(image: ImageSize, width: int, height: int)
    requires width > 0 && height > 0
    ensures var fit := AspectFit(image.width as real, image.height as real, width as real, height as real);
      FrameSize(image, width, height) == Some(PixelSize(fit.width.Floor, fit.height.Floor))
  {
    var aspect := image.width as real / image.height as real;
    var w, h := width as real, height as real;
    var fit := AspectFit(image.width as real, image.height as real, w, h);
    var r := FrameSize(image, width, height);
    FloorOf(w, width);
    FloorOf(h, height);
    if w / h > aspect {
      assert fit == Size(h * aspect, h);
      FloorOf(h * aspect, r.value.width);
    } else {
      assert fit == Size(w, w / aspect);
      FloorOf(w / aspect, r.value.height);
    }
  }

  /** The whole number `k` with `k <= x < k + 1` is the floor of `x`. */
  lemma FloorOf(x: real, k: int)
    requires k as real <= x < k as real + 1.0
    ensures x.Floor == k
  {
  }
}

=== FILE: frames.dfy ===
/** The image list as `remove_image` (main.py:271-274) changes it:
    Python's `list.remove` drops the first frame equal to the one given and
    keeps the order of the rest. Whether or not the frame was in the list,
    the method then calls `update_layout`, so the window shows
    `Screen.ScreenLayout` of the resulting list. This is the method as
    written; the thumbnail's delete button (main.py:34-37) never reaches
    it, since it looks for the application on the canvas, which does not
    carry it. */
module Frames {

  /** Position of the first frame equal to `frame`. */
  function FirstIndex<T(==)>(frames: seq<T>, frame: T): (i: nat)
    requires frame in frames
    ensures i < |frames| && frames[i] == frame
    ensures frame !in frames[..i]
  {
    if frames[0] == frame then 0
    else
      var i := FirstIndex(frames[1..], frame) + 1;
      assert frames[..i] == [frames[0]] + frames[1..][..i - 1];
      i
  }

  /** `remove_image`: `list.remove` drops the first frame equal to the one
      given, if there is one; everything else keeps its order. */
  function RemoveImage<T(==)>(frames: seq<T>, frame: T): (r: seq<T>)
    ensures frame !in frames ==> r == frames
    ensures frame in frames ==>
      var i := FirstIndex(frames, frame);
      r == frames[..i] + frames[i + 1..]
  {
    if |frames| == 0 then []
    else if frames[0] == frame then frames[1..]
    else
      var rest := RemoveImage(frames[1..], frame);
      RemoveStep(frames, frame, rest);
      [frames[0]] + rest
  }

  /** The step of `RemoveImage` past a first frame that is not the one
      removed. */
  lemma {:induction false} RemoveStep<T>(frames: seq<T>, frame: T, rest: seq<T>)
    requires |frames| > 0 && frames[0] != frame
    requires frame !in frames[1..] ==> rest == frames[1..]
    requires frame in frames[1..] ==>
      var i := FirstIndex(frames[1..], frame);
      rest == frames[1..][..i] + frames[1..][i + 1..]
    ensures frame !in frames ==> [frames[0]] + rest == frames
    ensures frame in frames ==>
      var i := FirstIndex(frames, frame);
      [frames[0]] + rest == frames[..i] + frames[i + 1..]
  {
    var tail := frames[1..];
    assert frames == [frames[0]] + tail;
    if frame in tail {
      var i := FirstIndex(tail, frame);
      assert FirstIndex(frames, frame) == i + 1;
      assert frames[..i + 1] == [frames[0]] + tail[..i];
      assert frames[i + 2..] == tail[i + 1..];
    }
  }

  /** Removing a present frame takes exactly one copy of it out of the
      collection; removing an absent one takes nothing. */
  lemma {:induction false} RemoveImageMultiset<T>(frames: seq<T>, frame: T)
    ensures multiset(RemoveImage(frames, frame)) + (if frame in frames then multiset{frame} else multiset{})
         == multiset(frames)
  {
    if frame in frames {
      var i := FirstIndex(frames, frame);
      var before, after := frames[..i], frames[i + 1..];
      assert frames == before + [frame] + after;
      MultisetSplit(before, frame, after);
    }
  }

  lemma MultisetSplit<T>(before: seq<T>, x: T, after: seq<T>)
    ensures multiset(before + [x] + after) == multiset(before + after) + multiset{x}
  {
    assert multiset(before + [x] + after) == multiset(before + [x]) + multiset(after);
    assert multiset(before + after) == multiset(before) + multiset(after);
  }

  /** Frames are distinct widgets; removing one leaves the others distinct
      and the removed one gone. */
  ghost predicate Distinct<T>(frames: seq<T>)
  {
    forall i, j :: 0 <= i < j < |frames| ==> frames[i] != frames[j]
  }

  lemma {:induction false} RemoveDistinct<T>(frames: seq<T>, frame: T)
    requires Distinct(frames)
    ensures frame !in RemoveImage(frames, frame)
    ensures Distinct(RemoveImage(frames, frame))
  {
    var r := RemoveImage(frames, frame);
    if frame in frames {
      var i := FirstIndex(frames, frame);
      forall k | 0 <= k < |r|
        ensures r[k] == frames[Skip(k, i)]
      {
      }
      forall k, l | 0 <= k < l < |r|
        ensures r[k] != r[l]
      {
        assert Skip(k, i) < Skip(l, i);
      }
      forall k | 0 <= k < |r|
        ensures r[k] != frame
      {
        assert Skip(k, i) != i;
      }
    }
  }

  /** Position in the original list of the `k`-th frame left after the
      one at `i` is taken out. */
  function Skip(k: nat, i: nat): nat
  {
    if k < i then k else k + 1
  }
}

=== FILE: grid.dfy ===
/** The row-major grid one page is laid out in (main.py:238, 256-258, 361,
    366-368, 459, 463-465): image `i` of a page goes to row `i // cols`,
    column `i % cols`, and the page has `(len + cols - 1) // cols` rows. */
module Grid {
  import opened Arith

  datatype Cell = Cell(row: nat, col: nat)

  /** `num_rows = (len + cols - 1) // cols`: the fewest rows of `cols`
      cells that hold `len` images. It is zero exactly for an empty page,
      which is the divisor that fails in `usable_height / num_rows`. */
  function RowCount(len: nat, cols: nat): (rows: nat)
    requires cols >= 1
    ensures rows * cols >= len
    ensures len > 0 ==> (rows - 1) * cols < len
    ensures rows == 0 <==> len == 0
  {
    CeilDiv(len, cols)
  }

  /** The cell of the `i`-th image of a page: a column inside the grid, and
      the row-major position `row * cols + col` is `i` itself. */
  function CellOf(i: nat, cols: nat): (c: Cell)
    requires cols >= 1
    ensures c.col < cols
    ensures c.row * cols + c.col == i
  {
    Cell(i / cols, i % cols)
  }

  /** Every image of a page lands in one of the page's rows. */
  lemma CellInGrid(i: nat, len: nat, cols: nat)
    requires cols >= 1
    requires i < len
    ensures CellOf(i, cols).row < RowCount(len, cols)
  {
    var c := CellOf(i, cols);
    var rows := RowCount(len, cols);
    if c.row >= rows {
      MulMonotone(rows, c.row, cols);
      assert false;
    }
  }

  /** Distinct images of a page get distinct cells. */
  lemma CellOfInjective(i: nat, j: nat, cols: nat)
    requires cols >= 1
    requires CellOf(i, cols) == CellOf(j, cols)
    ensures i == j
  {
  }

  /** Every cell of a `cols`-column grid is the cell of the image whose
      index is the cell's row-major position `row * cols + col`. */
  lemma CellOfPosition(row: nat, col: nat, cols: nat)
    requires cols >= 1
    requires col < cols
    ensures CellOf(row * cols + col, cols) == Cell(row, col)
  {
    var i := row * cols + col;
    var c := CellOf(i, cols);
    if c.row < row {
      MulMonotone(c.row + 1, row, cols);
      assert false;
    }
    if c.row > row {
      MulMonotone(row + 1, c.row, cols);
      assert false;
    }
  }
}

=== FILE: navigation.dfy ===
/** The page cursor of the main window (main.py:101-119, 216-218, 276-284):
    `current_page` starts at 1, the arrow buttons move it one page, and the
    layout shows `min(current_page, max(1, pages))`. The page count is the
    spin box value and may change while the cursor stays where it is. */
module Navigation {
  import opened Arith

  datatype Pager = Pager(current: int, pageCount: int)

  /** The cursor names a page that exists. */
  predicate InRange(s: Pager)
  {
    1 <= s.current <= s.pageCount
  }

  /** The window as it opens: page 1 of one page. */
  const Initial := Pager(1, 1)

  /** `prev_page`: moves back one page, except on page 1. */
  function PrevPage(s: Pager): (r: Pager)
    ensures r.pageCount == s.pageCount
    ensures r == s <==> s.current <= 1
    ensures r != s ==> r.current + 1 == s.current
    ensures s.current >= 1 ==> r.current >= 1
    ensures InRange(s) ==> InRange(r)
  {
    if s.current > 1 then s.(current := s.current - 1) else s
  }

  /** `next_page`: moves on one page, except on or past the last page. */
  function NextPage(s: Pager): (r: Pager)
    ensures r.pageCount == s.pageCount
    ensures r == s <==> s.current >= s.pageCount
    ensures r != s ==> r.current == s.current + 1
    ensures s.current >= 1 ==> r.current >= 1
    ensures InRange(s) ==> InRange(r)
  {
    if s.current < s.pageCount then s.(current := s.current + 1) else s
  }

  /** The spin box changes the page count; the cursor is left alone. */
  function SetPageCount(s: Pager, pages: int): (r: Pager)
    ensures r.current == s.current && r.pageCount == pages
  {
    s.(pageCount := pages)
  }

  /** `min(current_page, max(1, page_var))`, the page `update_layout` shows. */
  function ViewedPage(s: Pager): (page: int)
    requires s.current >= 1
    ensures 1 <= page <= Max(1, s.pageCount)
    ensures page <= s.current
    ensures InRange(s) ==> page == s.current
    ensures s.current > Max(1, s.pageCount) ==> page == Max(1, s.pageCount)
  {
    Min(s.current, Max(1, s.pageCount))
  }

  /** Going forward then back returns to the same page. */
  lemma NextThenPrev(s: Pager)
    requires 1 <= s.current < s.pageCount
    ensures PrevPage(NextPage(s)) == s
  {
  }

  /** Going back then forward returns to the same page. */
  lemma PrevThenNext(s: Pager)
    requires 1 < s.current <= s.pageCount
    ensures NextPage(PrevPage(s)) == s
  {
  }

  /** `k` presses of the forward arrow. */
  function NextTimes(s: Pager, k: nat): Pager
  {
    if k == 0 then s else NextPage(NextTimes(s, k - 1))
  }

  /** `k` presses of the back arrow. */
  function PrevTimes(s: Pager, k: nat): Pager
  {
    if k == 0 then s else PrevPage(PrevTimes(s, k - 1))
  }

  /** From a page in range, `k` forward presses reach page
      `min(current + k, pages)` and stop at the last page. */
  lemma {:induction false} NextTimesReaches(s: Pager, k: nat)
    requires InRange(s)
    ensures NextTimes(s, k) == s.(current := Min(s.current + k, s.pageCount))
  {
    if k > 0 {
      NextTimesReaches(s, k - 1);
    }
  }

  /** From any page at or above 1, `k` back presses reach page
      `max(current - k, 1)` and stop at page 1. */
  lemma {:induction false} PrevTimesReaches(s: Pager, k: nat)
    requires s.current >= 1
    ensures PrevTimes(s, k) == s.(current := Max(s.current - k, 1))
  {
    if k > 0 {
      PrevTimesReaches(s, k - 1);
    }
  }

  /** What the user can do to the cursor: press an arrow or change the
      page count in the spin box. */
  datatype Action = Prev | Next | SetPages(pages: int)

  function Apply(s: Pager, a: Action): Pager
  {
    match a
    case Prev => PrevPage(s)
    case Next => NextPage(s)
    case SetPages(pages) => SetPageCount(s, pages)
  }

  function Run(s: Pager, actions: seq<Action>): Pager
  {
    if |actions| == 0 then s else Apply(Run(s, actions[..|actions| - 1]), actions[|actions| - 1])
  }

  /** Whatever sequence of arrow presses and page-count changes happened
      since the window opened, the cursor is at least 1, so the viewed page
      is a real page. */
  lemma {:induction false} CursorStaysPositive(actions: seq<Action>)
    ensures Run(Initial, actions).current >= 1
    ensures 1 <= ViewedPage(Run(Initial, actions)) <= Max(1, Run(Initial, actions).pageCount)
  {
    if |actions| > 0 {
      CursorStaysPositive(actions[..|actions| - 1]);
    }
  }

  /** After the page count is lowered below the cursor, the back arrow
      moves the cursor but not the viewed page until the cursor comes back
      into range: with the cursor on 5 and the count set to 2, one press
      still shows page 2. */
  lemma PrevAfterShrinkKeepsView(s: Pager)
    requires s.pageCount >= 1
    requires s.current > s.pageCount + 1
    ensures ViewedPage(PrevPage(s)) == ViewedPage(s) == s.pageCount
  {
  }
}

=== FILE: outcome.dfy ===
/** Optional values and the two Python exceptions the layout code can raise. */
module Outcome {

  datatype Option<+T> = None | Some(value: T)

  /** `ZeroDivision` is the `ZeroDivisionError` of `usable_height / num_rows`
      (or `ceil(n / 0)`); `MathDomain` is the `ValueError` that `sqrt` raises
      on a negative argument. */
  datatype LayoutError = ZeroDivision | MathDomain

  datatype Result<+T> = Ok(value: T) | Err(error: LayoutError)
}

=== FILE: pagination.dfy ===
/** Splitting the ordered image list into pages (main.py:216-225, 345,
    353-359, 439, 455-457): every page holds `images_per_page =
    ceil(n / pages)` slots, and page `p` (counted from 0) shows the Python
    slice `images[p * ipp : min(p * ipp + ipp, n)]`. */
module Pagination {
  import opened Arith

  /** `images[start:end]` with `start = p * ipp` and
      `end = min(start + ipp, |images|)`; Python yields the empty list when
      `start >= end`. */
  function PageSlice<T>(images: seq<T>, ipp: nat, p: nat): (page: seq<T>)
    ensures |page| <= ipp
    ensures page != [] ==> p * ipp + |page| <= |images|
    ensures forall j :: 0 <= j < |page| ==> page[j] == images[p * ipp + j]
    ensures page == [] <==> (ipp == 0 || p * ipp >= |images|)
  {
    var start := p * ipp;
    var end := Min(start + ipp, |images|);
    if start < end then images[start..end] else []
  }

  /** The page slice as the clamped interval `[min(p*ipp, n), min(p*ipp+ipp, n))`:
      consecutive pages share their boundary, so they tile the list. */
  lemma PageSliceIsClampedInterval<T>(images: seq<T>, ipp: nat, p: nat)
    ensures PageSlice(images, ipp, p)
         == images[Min(p * ipp, |images|)..Min(p * ipp + ipp, |images|)]
  {
  }

  /** Concatenation of a list of pages, first page first. */
  function Flatten<T>(pages: seq<seq<T>>): (r: seq<T>)
  {
    if |pages| == 0 then [] else Flatten(pages[..|pages| - 1]) + pages[|pages| - 1]
  }

  /** The pages `0 .. pages-1` the export and preview loops visit. */
  function Paginate<T>(images: seq<T>, pages: nat): (r: seq<seq<T>>)
    requires pages >= 1
    ensures |r| == pages
    ensures forall p :: 0 <= p < pages ==> |r[p]| <= CeilDiv(|images|, pages)
    ensures forall p :: 0 <= p < pages ==> r[p] == PageSlice(images, CeilDiv(|images|, pages), p)
  {
    var ipp := CeilDiv(|images|, pages);
    seq(pages, p requires 0 <= p < pages => PageSlice(images, ipp, p))
  }

  /** Where page `p` begins once clamped to the list: `min(p * ipp, n)`. */
  function PageBound(p: nat, ipp: nat, n: nat): nat
  {
    Min(p * ipp, n)
  }

  lemma PageBoundStep(p: nat, ipp: nat, n: nat)
    ensures PageBound(p, ipp, n) <= PageBound(p + 1, ipp, n)
    ensures PageBound(p + 1, ipp, n) == Min(p * ipp + ipp, n)
  {
    NextPageStart(p, ipp);
  }

  /** Pages that each cover the interval between consecutive bounds tile a
      prefix of the list: the first `k` of them are `images[..bound(k)]`. */
  lemma {:induction false} TilingPrefix<T>(images: seq<T>, ipp: nat, ps: seq<seq<T>>, k: nat)
    requires k <= |ps|
    requires forall p :: 0 <= p < |ps| ==>
      PageBound(p, ipp, |images|) <= PageBound(p + 1, ipp, |images|) &&
      ps[p] == images[PageBound(p, ipp, |images|)..PageBound(p + 1, ipp, |images|)]
    ensures Flatten(ps[..k]) == images[..PageBound(k, ipp, |images|)]
  {
    if k > 0 {
      TilingPrefix(images, ipp, ps, k - 1);
      var a := PageBound(k - 1, ipp, |images|);
      var b := PageBound(k, ipp, |images|);
      assert ps[..k][..k - 1] == ps[..k - 1];
      assert Flatten(ps[..k]) == Flatten(ps[..k - 1]) + ps[k - 1];
      assert images[..a] + images[a..b] == images[..b];
    }
  }

  lemma NextPageStart(p: nat, ipp: nat)
    ensures p * ipp + ipp == (p + 1) * ipp
  {
  }

  /** Pagination loses, duplicates and reorders nothing: the pages, read in
      order, are the image list. */
  lemma {:induction false} PaginationCoversAll<T>(images: seq<T>, pages: nat)
    requires pages >= 1
    ensures Flatten(Paginate(images, pages)) == images
  {
    var ps := Paginate(images, pages);
    var ipp := CeilDiv(|images|, pages);
    assert ipp * pages >= |images|;
    assert PageBound(pages, ipp, |images|) == |images|;
    PaginateTiles(images, pages);
    TilingPrefix(images, ipp, ps, pages);
    assert Flatten(ps[..pages]) == images;
    assert ps[..pages] == ps;
  }

  lemma PaginateTiles<T>(images: seq<T>, pages: nat)
    requires pages >= 1
    ensures var ps := Paginate(images, pages); var ipp := CeilDiv(|images|, pages);
      forall p :: 0 <= p < |ps| ==>
        PageBound(p, ipp, |images|) <= PageBound(p + 1, ipp, |images|) &&
        ps[p] == images[PageBound(p, ipp, |images|)..PageBound(p + 1, ipp, |images|)]
  {
    var ps := Paginate(images, pages);
    var ipp := CeilDiv(|images|, pages);
    forall p | 0 <= p < |ps|
      ensures PageBound(p, ipp, |images|) <= PageBound(p + 1, ipp, |images|)
      ensures ps[p] == images[PageBound(p, ipp, |images|)..PageBound(p + 1, ipp, |images|)]
    {
      PageBoundStep(p, ipp, |images|);
      PageSliceIsClampedInterval(images, ipp, p);
    }
  }

  /** Image `i` sits on page `p` exactly when `p == i / ipp`: each image is
      on one page and on no other. */
  lemma {:induction false} PageOfImage(n: nat, pages: nat, i: nat, p: nat)
    requires pages >= 1
    requires i < n
    requires p < pages
    ensures var ipp := CeilDiv(n, pages);
      (p * ipp <= i < p * ipp + |PageSlice(Range(n), ipp, p)|) <==> p == i / ipp
  {
    var ipp := CeilDiv(n, pages);
    var len := |PageSlice(Range(n), ipp, p)|;
    PageLength(Range(n), ipp, p);
    DivBounds(i, ipp);
    if p * ipp <= i < p * ipp + len {
      DivIsPage(i, ipp, p);
    }
  }

  /** A page that starts inside the list holds `min(ipp, n - start)`
      images. */
  lemma PageLength<T>(images: seq<T>, ipp: nat, p: nat)
    ensures p * ipp < |images| ==> |PageSlice(images, ipp, p)| == Min(ipp, |images| - p * ipp)
  {
  }

  lemma DivBounds(i: nat, d: nat)
    requires d >= 1
    ensures (i / d) * d <= i < (i / d) * d + d
  {
  }

  lemma DivIsPage(i: nat, ipp: nat, p: nat)
    requires ipp >= 1
    requires p * ipp <= i < p * ipp + ipp
    ensures i / ipp == p
  {
    var q, r := i / ipp, i % ipp;
    assert i == q * ipp + r;
    if q < p {
      assert (q + 1) * ipp <= p * ipp by { MulMonotone(q + 1, p, ipp); }
      assert false;
    }
    if q > p {
      assert (p + 1) * ipp <= q * ipp by { MulMonotone(p + 1, q, ipp); }
      assert false;
    }
  }

  /** Empty pages come only at the end: once a page is empty, every later
      page is empty too. */
  lemma EmptyPagesAreTrailing<T>(images: seq<T>, ipp: nat, p: nat, q: nat)
    requires p <= q
    requires PageSlice(images, ipp, p) == []
    ensures PageSlice(images, ipp, q) == []
  {
    if ipp > 0 {
      MulMonotone(p, q, ipp);
    }
  }

  /** With at least one image, some page is left empty exactly when the
      last page starts at or beyond the end of the list. */
  lemma SomePageEmptyIff<T>(images: seq<T>, pages: nat)
    requires pages >= 1
    requires |images| > 0
    ensures (exists p :: 0 <= p < pages && Paginate(images, pages)[p] == [])
        <==> (pages - 1) * CeilDiv(|images|, pages) >= |images|
  {
    var ps := Paginate(images, pages);
    var ipp := CeilDiv(|images|, pages);
    if exists p :: 0 <= p < pages && ps[p] == [] {
      var p :| 0 <= p < pages && ps[p] == [];
      EmptyPagesAreTrailing(images, ipp, p, pages - 1);
    }
    if (pages - 1) * ipp >= |images| {
      assert ps[pages - 1] == [];
    }
  }

  /** Four images over three pages: two per page, and the third page is
      empty. */
  lemma FourImagesThreePages()
    ensures CeilDiv(4, 3) == 2
    ensures |Paginate(Range(4), 3)[2]| == 0
  {
    assert CeilDiv(4, 3) == 2;
  }
}

=== FILE: screen.dfy ===
/** The on-screen page of the main window, `update_layout`
    (main.py:203-265): the viewed page's slice of the image list shown as a
    grid of thumbnails on a 816 x 1056 pixel page (letter at 96 dpi). */
module Screen {
  import opened Arith
  import opened Outcome
  import opened Columns
  import opened Pagination
  import opened Grid
  import opened Fit
  import opened Navigation
  import Document

  /** `int(8.5 * 96)` and `int(11 * 96)` (main.py:74-75). */
  const ScreenPageWidth: int := (8.5 * 96.0).Floor
  const ScreenPageHeight: int := (11.0 * 96.0).Floor

  /** Thumbnail of image `image` in grid cell `cell`, resized to `size`, or
      left as it was when `update_size` returned early. */
  datatype ScreenCell = ScreenCell(image: nat, cell: Cell, size: Option<PixelSize>)

  /** Without images the layout returns at once and the window is left
      unchanged; otherwise the viewed page is shown as a grid. */
  datatype ScreenView = Unchanged | Shown(columns: nat, rows: nat, cells: seq<ScreenCell>)

  /** `max(1, page_width // num_columns)`: the page width shared equally
      among the columns, rounded down, and never less than one pixel. */
  function CellWidth(cols: nat): (w: int)
    requires cols >= 1
    ensures 1 <= w
    ensures cols <= ScreenPageWidth ==> w * cols <= ScreenPageWidth < (w + 1) * cols
    ensures cols > ScreenPageWidth ==> w == 1
  {
    Max(1, ScreenPageWidth / cols)
  }

  /** `max(1, page_height // num_rows)`: the page height shared equally
      among the rows, rounded down, and never less than one pixel. */
  function CellHeight(rows: nat): (h: int)
    requires rows >= 1
    ensures 1 <= h
    ensures rows <= ScreenPageHeight ==> h * rows <= ScreenPageHeight < (h + 1) * rows
    ensures rows > ScreenPageHeight ==> h == 1
  {
    Max(1, ScreenPageHeight / rows)
  }

  /** Padding on each side of a thumbnail: every thumbnail is padded,
      and "Auto" packs them tighter (one pixel) than a fixed column count
      (two pixels). */
  function Padding(setting: ColumnSetting): (pad: nat)
    ensures 1 <= pad <= 2
    ensures setting.Auto? <==> pad == 1
  {
    if setting.Auto? then 1 else 2
  }

  /** How the thumbnail of an image of pixel size `size` is sized in a grid
      of `cols` by `rows`: when the cell less the padding on both sides is
      positive both ways, it is resized to the aspect fit of the image into
      that padded cell, each side cut down to whole pixels, and so fits its
      cell with the padding around it; otherwise it is left as it was. */
  predicate Thumbnailed(c: ScreenCell, size: ImageSize, cols: nat, rows: nat, setting: ColumnSetting)
    requires cols >= 1 && rows >= 1
  {
    var w := CellWidth(cols) - 2 * Padding(setting);
    var h := CellHeight(rows) - 2 * Padding(setting);
    (c.size.Some? <==> w > 0 && h > 0) &&
    (w > 0 && h > 0 ==>
       var fit := AspectFit(size.width as real, size.height as real, w as real, h as real);
       c.size == Some(PixelSize(fit.width.Floor, fit.height.Floor)) &&
       c.size.value.width + 2 * Padding(setting) <= CellWidth(cols) &&
       c.size.value.height + 2 * Padding(setting) <= CellHeight(rows))
  }

  /** What every shown thumbnail promises: it is image `first + i`, of
      pixel size `size`, in cell `CellOf(i, cols)` of the grid, sized as
      `Thumbnailed` says. */
  predicate WellShown(c: ScreenCell, size: ImageSize, i: nat, first: nat, cols: nat, rows: nat,
                      setting: ColumnSetting)
    requires cols >= 1 && rows >= 1
  {
    c.image == first + i && c.cell == CellOf(i, cols) && c.cell.row < rows &&
    Thumbnailed(c, size, cols, rows, setting)
  }

  /** Frame `i` of the page: its grid cell, and `update_size` with the
      cell size less twice the padding. */
  function ShowFrame(frames: seq<ImageSize>, i: nat, first: nat, cols: nat, setting: ColumnSetting): (c: ScreenCell)
    requires i < |frames| && cols >= 1
    ensures WellShown(c, frames[i], i, first, cols, RowCount(|frames|, cols), setting)
  {
    var rows := RowCount(|frames|, cols);
    CellInGrid(i, |frames|, cols);
    var pad := Padding(setting);
    if CellWidth(cols) - 2 * pad > 0 && CellHeight(rows) - 2 * pad > 0 then
      FrameSizeTruncatesAspectFit(frames[i], CellWidth(cols) - 2 * pad, CellHeight(rows) - 2 * pad);
      ScreenCell(first + i, CellOf(i, cols),
                 FrameSize(frames[i], CellWidth(cols) - 2 * pad, CellHeight(rows) - 2 * pad))
    else
    ScreenCell(first + i, CellOf(i, cols),
               FrameSize(frames[i], CellWidth(cols) - 2 * pad, CellHeight(rows) - 2 * pad))
  }

  /** The grid of one page's frames: `num_rows` rows of `cols`. An empty
      page makes `num_rows` zero, and `page_height // num_rows` raises unless
      empty pages are left blank. */
  function ShowPage(frames: seq<ImageSize>, first: nat, cols: nat, setting: ColumnSetting,
                    policy: Document.EmptyPagePolicy): (r: Result<ScreenView>)
    requires cols >= 1
    ensures r.Err? <==> frames == [] && policy == Document.Divide
    ensures r.Err? ==> r.error == ZeroDivision
    ensures r.Ok? ==>
      r.value.Shown? && r.value.columns == cols &&
      r.value.rows == RowCount(|frames|, cols) && |r.value.cells| == |frames|
    ensures r.Ok? && frames != [] ==>
      forall i :: 0 <= i < |frames| ==>
        WellShown(r.value.cells[i], frames[i], i, first, cols, RowCount(|frames|, cols), setting)
  {
    var rows := RowCount(|frames|, cols);
    if rows == 0 then
      if policy == Document.Divide then Err(ZeroDivision) else Ok(Shown(cols, 0, []))
    else
      Ok(Shown(cols, rows, seq(|frames|, i requires 0 <= i < |frames| =>
        ShowFrame(frames, i, first, cols, setting))))
  }

  /** The thumbnails of `frames` form a grid of `cols` columns and `rows`
      rows: the `i`-th sits in cell `CellOf(i, cols)`, sized from frame
      `i` as `Thumbnailed` says. */
  predicate InGrid(cells: seq<ScreenCell>, frames: seq<ImageSize>, cols: nat, rows: nat, setting: ColumnSetting)
    requires cols >= 1
  {
    |cells| == |frames| &&
    forall i :: 0 <= i < |cells| ==>
      cells[i].cell == CellOf(i, cols) && cells[i].cell.row < rows &&
      Thumbnailed(cells[i], frames[i], cols, rows, setting)
  }

  /** The thumbnails, read in grid order, are the images `ids`. */
  predicate ShowsImages(cells: seq<ScreenCell>, ids: seq<nat>)
  {
    |cells| == |ids| && forall i :: 0 <= i < |cells| ==> cells[i].image == ids[i]
  }

  /** The ids a page's grid shows are the page slice of the list. */
  lemma {:induction false} ShownPageIds(sizes: seq<ImageSize>, ipp: nat, p: nat, cols: nat,
                                        setting: ColumnSetting, policy: Document.EmptyPagePolicy)
    requires cols >= 1
    requires ShowPage(PageSlice(sizes, ipp, p), p * ipp, cols, setting, policy).Ok?
    ensures ShowsImages(ShowPage(PageSlice(sizes, ipp, p), p * ipp, cols, setting, policy).value.cells,
                        PageSlice(Range(|sizes|), ipp, p))
  {
    var frames := PageSlice(sizes, ipp, p);
    var first := p * ipp;
    var ids := PageSlice(Range(|sizes|), ipp, p);
    var cells := ShowPage(frames, first, cols, setting, policy).value.cells;
    assert |ids| == |frames| == |cells|;
    forall j | 0 <= j < |ids|
      ensures cells[j].image == ids[j]
    {
      assert ids[j] == first + j;
      assert WellShown(cells[j], frames[j], j, first, cols, RowCount(|frames|, cols), setting);
    }
  }

  /** The viewed page of `update_layout` in `cols` columns: its slice of
      the list, shown as a grid, or the division error when that slice is
      empty and empty pages divide. */
  function ViewedGrid(sizes: seq<ImageSize>, s: Pager, cols: nat, setting: ColumnSetting,
                      policy: Document.EmptyPagePolicy): (r: Result<ScreenView>)
    requires |sizes| > 0 && s.current >= 1 && cols >= 1
    ensures
      var ipp := CeilDiv(|sizes|, Max(1, s.pageCount));
      var page: nat := ViewedPage(s) - 1;
      (r.Err? <==> PageSlice(sizes, ipp, page) == [] && policy == Document.Divide) &&
      (r.Err? ==> r.error == ZeroDivision) &&
      (r.Ok? ==> r.value.Shown? && r.value.columns == cols &&
                 ShowsImages(r.value.cells, PageSlice(Range(|sizes|), ipp, page)) &&
                 InGrid(r.value.cells, PageSlice(sizes, ipp, page), cols, r.value.rows, setting))
  {
    var ipp := CeilDiv(|sizes|, Max(1, s.pageCount));
    var page: nat := ViewedPage(s) - 1;
    var r := ShowPage(PageSlice(sizes, ipp, page), page * ipp, cols, setting, policy);
    if r.Ok? then
      ShownPageIds(sizes, ipp, page, cols, setting, policy);
      r
    else r
  }

  /** The viewed page's own image count, the one `update_layout` hands to
      the column heuristic. */
  function ViewedCount(sizes: seq<ImageSize>, s: Pager): (n: nat)
    requires s.current >= 1
    ensures n == |PageSlice(sizes, CeilDiv(|sizes|, Max(1, s.pageCount)), ViewedPage(s) - 1)|
    ensures n <= CeilDiv(|sizes|, Max(1, s.pageCount))
    ensures n == 0 <==> (ViewedPage(s) - 1) * CeilDiv(|sizes|, Max(1, s.pageCount)) >= |sizes|
  {
    var page: nat := ViewedPage(s) - 1;
    |PageSlice(sizes, CeilDiv(|sizes|, Max(1, s.pageCount)), page)|
  }

  /** `update_layout` as written: the page shown is `min(current, max(1,
      pages))`, and under "Auto" the column heuristic is given the shown
      page's own image count together with the page count. The window
      shows exactly the images of the viewed page, the same slice the PDF
      puts on that page, and fails exactly when that page is empty. */
  function ScreenLayout(sizes: seq<ImageSize>, s: Pager, setting: ColumnSetting): (r: Result<ScreenView>)
    requires s.current >= 1
    ensures |sizes| == 0 ==> r == Ok(Unchanged)
    ensures |sizes| > 0 ==>
      var total := Max(1, s.pageCount);
      var ipp := CeilDiv(|sizes|, total);
      var frames := PageSlice(sizes, ipp, ViewedPage(s) - 1);
      (r.Err? <==> frames == []) &&
      (r.Err? ==> r.error == ZeroDivision) &&
      (r.Ok? ==> r.value.Shown? && r.value.columns == ColumnCount(setting, |frames|, total) &&
                 ShowsImages(r.value.cells, PageSlice(Range(|sizes|), ipp, ViewedPage(s) - 1)) &&
                 InGrid(r.value.cells, frames, r.value.columns, r.value.rows, setting))
  {
    if |sizes| == 0 then Ok(Unchanged)
    else
      var cols := ColumnCount(setting, ViewedCount(sizes, s), Max(1, s.pageCount));
      ViewedGrid(sizes, s, cols, setting, Document.Divide)
  }

  /** `update_layout` with the column count the PDF uses (the whole list's
      image count) and an empty page shown blank: it always shows the
      viewed page, in the PDF's column count. */
  function ScreenLayoutCorrected(sizes: seq<ImageSize>, s: Pager, setting: ColumnSetting): (r: Result<ScreenView>)
    requires s.current >= 1
    ensures |sizes| == 0 ==> r == Ok(Unchanged)
    ensures |sizes| > 0 ==>
      var total := Max(1, s.pageCount);
      var ipp := CeilDiv(|sizes|, total);
      r.Ok? && r.value.Shown? && r.value.columns == ColumnCount(setting, |sizes|, total) &&
      ShowsImages(r.value.cells, PageSlice(Range(|sizes|), ipp, ViewedPage(s) - 1)) &&
      InGrid(r.value.cells, PageSlice(sizes, ipp, ViewedPage(s) - 1), r.value.columns, r.value.rows, setting)
  {
    if |sizes| == 0 then Ok(Unchanged)
    else ViewedGrid(sizes, s, ColumnCount(setting, |sizes|, Max(1, s.pageCount)), setting, Document.Blank)
  }

  /** Four images on three pages, viewing page 3: the page is empty and
      `page_height // num_rows` divides by zero. */
  lemma ScreenFailsOnEmptyPage(sizes: seq<ImageSize>, setting: ColumnSetting)
    requires |sizes| == 4
    ensures ScreenLayout(sizes, Pager(3, 3), setting) == Err(ZeroDivision)
  {
    assert CeilDiv(4, 3) == 2;
  }

  /** Eight images on two pages, first page, "Auto": the window's grid
      has two columns. */
  lemma ScreenFirstOfTwoPagesUsesTwoColumns(sizes: seq<ImageSize>, s: Pager)
    requires |sizes| == 8
    requires s == Pager(1, 2)
    ensures ScreenLayout(sizes, s, Auto).Ok?
    ensures ScreenLayout(sizes, s, Auto).value.columns == 2
  {
    var r := ScreenLayout(sizes, s, Auto);
    var total := Max(1, s.pageCount);
    var ipp := CeilDiv(|sizes|, total);
    var frames := PageSlice(sizes, ipp, ViewedPage(s) - 1);
    assert r.Ok? && r.value.columns == ColumnCount(Auto, |frames|, total);
    assert ViewedPage(s) == 1;
    assert ipp == 4;
    var n := |frames|;
    assert n == 4;
    FourImagesTwoPages();
    assert OptimalColumns(n, 2) == 2;
  }

  /** Eight images on two pages under "Auto": the PDF lays each page out in
      three columns, the window in two, because the window gives the
      heuristic the page's four images and divides them by the page count
      again. The third image of page 1 is drawn in row 0, column 2 of the
      PDF but shown in row 1, column 0 of the window. */
  lemma ScreenColumnsDisagreeWithExport(sizes: seq<ImageSize>, s: Pager)
    requires |sizes| == 8
    requires s == Pager(1, 2)
    ensures ScreenLayout(sizes, s, Auto).Ok?
    ensures ScreenLayout(sizes, s, Auto).value.columns == 2
    ensures ColumnCount(Auto, |sizes|, s.pageCount) == 3
    ensures |ScreenLayout(sizes, s, Auto).value.cells| == 4
    ensures ScreenLayout(sizes, s, Auto).value.cells[2].image == 2
    ensures ScreenLayout(sizes, s, Auto).value.cells[2].cell == Cell(1, 0)
    ensures Document.ExportLayout(sizes, 2, Auto).Ok?
    ensures |Document.ExportLayout(sizes, 2, Auto).value| == 2
    ensures |Document.ExportLayout(sizes, 2, Auto).value[0]| >= 3
    ensures Document.ExportLayout(sizes, 2, Auto).value[0][2].cell == Cell(0, 2)
  {
    ScreenFirstOfTwoPagesUsesTwoColumns(sizes, s);
    EightImagesTwoPages();
    var view := ScreenLayout(sizes, s, Auto).value;
    var page := PageSlice(Range(|sizes|), CeilDiv(|sizes|, 2), 0);
    assert CeilDiv(8, 2) == 4;
    assert ViewedPage(s) == 1;
    assert |page| == 4 && page[2] == 2;
    var frames := PageSlice(sizes, CeilDiv(|sizes|, 2), 0);
    assert ShowsImages(view.cells, page) && InGrid(view.cells, frames, 2, view.rows, Auto);
    assert CellOf(2, 2) == Cell(1, 0);
    var pdf := Document.ExportLayout(sizes, 2, Auto);
    assert (2 - 1) * CeilDiv(|sizes|, 2) < |sizes|;
    var doc := pdf.value;
    assert Document.InColumns(Document.LetterPage, Document.Upward, doc, 3);
    PdfFirstPageHoldsFour(sizes, doc);
    assert CellOf(2, 3) == Cell(0, 2);
  }

  /** With eight images on two pages, the first page of the PDF holds
      four images. */
  lemma PdfFirstPageHoldsFour(sizes: seq<ImageSize>, doc: seq<seq<Document.Placement>>)
    requires |sizes| == 8
    requires Document.ExportLayout(sizes, 2, Auto) == Ok(doc)
    ensures |doc| == 2 && |doc[0]| == 4
  {
    assert CeilDiv(8, 2) == 4;
    var ids := Document.DocumentIds(doc);
    assert |doc| == 2;
    assert Flatten(ids) == Range(8);
    assert |Flatten(ids)| == |ids[0]| + |ids[1]| by {
      assert Flatten(ids) == ids[0] + Flatten(ids[1..]);
      assert Flatten(ids[1..]) == ids[1] + Flatten(ids[2..]);
    }
  }
}
